=== FILE: README.md ===
# auto-config-js in Dafny

A model of the two algorithms at the heart of auto-config-js:

- **The environment override engine** (`lib/utils.js:13-90`). Each system
  variable's name is lower-cased and split on `_`. The tokens are walked down
  the configuration tree, matching keys case-insensitively. The property the
  walk reaches gets the variable's value, coerced to the type of the value it
  replaces.
- **Include resolution and deep merge**, which build the configuration tree
  from YAML profiles. The repository has two variants:
  - the queue-based `loadConfiguration` (`lib/utils.js:114-140`);
  - the recursive `loadConfig` (`lib/autoConfig.js:38-54`).

  Both use the same `mergeDeep` (`lib/utils.js:93-106`, `lib/autoConfig.js:18-31`).

A parsed YAML document is a `Value`: an object (a map from key to value), a
boolean, an integer, a string, an array or null. The file system is a
parameter. `docs: map<string, Value>` maps a profile name to its parsed
document, and a missing profile is an error. A thrown `Error` is the `Err`
case of a `Result`.

Modules, one per file:

| file | module | what it holds |
|---|---|---|
| `wrappers.dfy` | `Wrappers` | `Option`, and `Result` with `:-` standing for a `throw` |
| `text.dfy` | `Text` | ASCII lower-casing, `split('_')` and `join('_')`, decimal integers standing for `Number()` |
| `values.dfy` | `Values` | the value and error types, truthiness, object spread, template strings, and `Lookup`/`SetAt` at a key path with their algebra |
| `lookup.dfy` | `CaseInsensitive` | `getPropertyNameCaseInsensitive`, `getPropertyCaseInsensitive`, the type coercion of `setPropertyCaseInsensitive` |
| `override.dfy` | `Override` | the token walk, the guard of line 82, one variable and a whole pass as functions, and the class `Config` whose methods change the tree in place, proved equal to those functions |
| `override_examples.dfy` | `OverrideExamples` | the override scenarios of `test/utils.test.js`, and the quirks of the walk and the guard on concrete trees |
| `merge.dfy` | `Merge` | `mergeDeep` and what it guarantees about leaves |
| `load_configuration.dfy` | `Loader` | `loadConfiguration`: a spec function for one pass of its loop, and methods with the queue, proved equal to it |
| `auto_config.dfy` | `AutoConfig` | `loadConfig`: mutual recursion over documents and include lists |

### Quirks of the code

The model keeps these behaviours of the code, each proved by the lemma named:

- **A token that matches no key is read as `undefined`.** When no key
  matches, `object[undefined]` reads the key named `"undefined"`. A lookup
  then returns that key's value, and the walk goes down into it
  (`OverrideExamples.UndefinedKeyExample`). A matched key `""` counts as
  missing when a value is written (`CaseInsensitive.SetProperty`).
- **Underscores always separate levels.** The key written is always one of
  the name's tokens, none of which holds `_` (`Override.OverrideOneEffect`,
  `Text.Split`). So `COMPOSE_VAR` never matches a leaf `composeVar`, and
  `COM_POSE_VAR` never matches `compose.var`. A walk that misses changes
  nothing (`OverrideExamples.SplitNameExample`,
  `OverrideExamples.JoinedNameExample`).
- **The guard at `lib/utils.js:82`** uses the lower-cased token as an exact
  key and requires a truthy value. So a key with capitals is never written
  (`Override.WrittenKeyLowerCase`), and a setting that is `false`, `0`, `''`
  or null is never changed (`Override.OverrideOneAt`,
  `Override.OverrideAllKeepsTypes`). `OverrideExamples.MixedCaseKeyExample`
  and `OverrideExamples.FalsyValueExample` are one example of each.
- **`loadConfiguration` reverses each include list.** `unshift` puts the
  entries in front of the queue one by one, so the first entry listed wins
  (`Loader.TwoIncludes`).
- **`loadConfiguration` reads a nested include after its includer.** Its
  includes go to the front of the queue, so the nested include is merged
  after the profile that includes it and wins over it (`Loader.NestedIncludes`).
  `loadConfig` does the reverse: it resolves a profile's includes first and
  merges the profile over them, so the includer wins (`AutoConfig.IncludedLeafWins`).
- **The loop stops as soon as the queue is empty.** So the includes of the
  last profile taken are never read (`Loader.SingleInclude`).
- **A falsy last entry in a root list of two or more entries loops
  forever** (`Loader.EmptyEntryDiverges`). A list holding only a falsy entry
  ends after one pass, with the root as the configuration
  (`Loader.LoneEmptyEntry`).
- **The two loaders fold lists in opposite orders.** `loadConfig` folds the
  list in order, so the last entry wins. For `include: [a, b]` the two
  variants therefore disagree (`AutoConfig.IncludeOrderDiffers`).
- **A non-array `include` is handled differently by the two loaders.**
  - `loadConfiguration` rejects a truthy non-array `include`
    (`Loader.RootIncludeNotArray`). The message names the root profile,
    whichever document is at fault (`Loader.IncludeErrorNamesRoot`).
  - The check at `lib/autoConfig.js:41` tests the document rather than its
    `include`, so it never fires. A truthy non-array `include` fails only
    when `forEach` is called on it, which is `IncludeNotIterable` in the
    model (`AutoConfig.LoadConfig`).
- **A missing included profile is an error naming it**, in both loaders
  (`Loader.MissingIncludeFails`, `AutoConfig.MissingIncludeFails`).

Precedence ("later wins", "the includer wins") holds only when the documents
agree on which paths hold objects. In `mergeDeep` a source object that meets
a target scalar is lost (`Merge.MergeLosesSourceUnderScalar`). The
precedence lemmas therefore take a schema `isMap: Path -> bool` that all
documents fit.

## Model

| member | source | states |
|---|---|---|
| Text.Split | lib/utils.js:72 | `split('_')` gives at least one token, and no token contains `_` |
| Text.JoinSplit | lib/utils.js:72 | joining the tokens of a name with `_` gives the name back |
| Text.SplitKeepsChars | lib/utils.js:72 | every character of a token of `split('_')` is a character of the name |
| Text.LowerTokens | lib/utils.js:72 | no token of a lower-cased name holds a capital letter |
| Text.SplitJoin | lib/utils.js:72 | splitting the join of underscore-free tokens gives the tokens back |
| Text.LowerLetters | lib/utils.js:15 | `toLowerCase` keeps the length, leaves no capital letter, and changes a character only by turning a capital into its small letter |
| Text.ParseNumber | lib/utils.js:53-59 | `Number()` on integers: "" is 0; digits alone are a non-negative number; anything accepted is an optional sign followed by digits, and only a leading `-` gives a negative number |
| Text.ParseNumberRoundTrip | lib/utils.js:53-59 | every integer written in decimal is read back by the `Number()` stand-in as itself |
| Values.IsObject | lib/utils.js:5-7 | exactly the values that are truthy, of type 'object' (object, array or null) and not arrays |
| Values.Truthy | lib/utils.js:82 | falsy exactly for `false`, `0`, `''` and null; objects and arrays are truthy |
| Values.Spread | lib/utils.js:94 | `{...v}`: an object's own fields; for an array or string, exactly the index keys with element i under "i"; nothing for booleans, numbers and null |
| Values.ToJsString | lib/utils.js:109 | the template substitution of a profile name: a string is itself, null is "null", a boolean "true" or "false" as it is, an object "[object Object]"; an array joins its elements with commas: empty gives "", one element gives that element (null giving ""), two or more hold a comma |
| Values.ToJsStringNumber | lib/utils.js:109 | a number substitutes as its decimal digits, which `Number()` reads back as that number; digits alone exactly when it is not negative |
| Values.IndexKeyed | lib/utils.js:94 | spreading an array or string gives exactly the keys "0".."n-1", with element i under key "i" |
| CaseInsensitive.GetPropertyName | lib/utils.js:13-21 | throws (naming the property) iff two keys match after lower-casing; undefined iff none matches; otherwise the one matching key |
| CaseInsensitive.UniqueNameFound | lib/utils.js:13-21 | a key that is the only case-insensitive match is the one returned |
| CaseInsensitive.KeyRead | lib/utils.js:24 | the key read: throws iff the name lookup throws; a key found is the key read; with no key found, the key "undefined" when the object has it, else none; a key it reads is in the object |
| CaseInsensitive.GetPropertyCaseInsensitive | lib/utils.js:23-25 | throws iff the name lookup throws; a matching key gives the value of a matching key; with no match, the value under "undefined" if there is one, else undefined |
| CaseInsensitive.LookupMisses | test/utils.test.js:16-22 | the misses the test file expects: the empty object, `test`, `HelloWorld` and `hell` give undefined |
| CaseInsensitive.LookupExamples | test/utils.test.js:24-30 | the hits the test file expects: `test`, `TEST` and `tEst` find `test`; `{test, Test}` throws naming `test` |
| CaseInsensitive.Coerce | lib/utils.js:42-64 | throws exactly when a boolean gets neither "true" nor "false" in any case, or a number gets what does not parse, with the matching error; otherwise a boolean becomes true or false as the string says, a number the parsed number, anything else the string itself |
| CaseInsensitive.CoerceRoundTrip | lib/utils.js:42-64 | "true"/"TRUE"/"false"/"False" give the matching boolean, a decimal integer gives itself, a string is taken verbatim |
| CaseInsensitive.SetProperty | lib/utils.js:33-65 | duplicate keys throw the duplicate error; no matching key (or the key "") throws non-existing-property; otherwise the result is exactly the object with the matched key set to the coerced value, or the coercion's error |
| Override.WalkFrom | lib/utils.js:76-80 | on success every path key is the key read for its token (the match, else "undefined"), the path leads to an object, and the walk stopped when the tokens ran out or the key read holds no object; an error is a duplicate of one of the tokens (`WalkErrorIsClash` says which) |
| Override.WalkErrorIsClash | lib/utils.js:76-80 | a failed walk read, one per token, the keys of some path; the object it reached there has two keys equal after lower-casing to the next token, and the error names that token |
| Override.WalkSucceeds | lib/utils.js:76-80 | in a configuration with no two keys equal after lower-casing, at any depth, every walk succeeds |
| Override.Guard | lib/utils.js:82 | the last token is itself a key with a truthy value; then writing it never fails as non-existing |
| Override.LocateTarget | lib/utils.js:72-80 | the do-while loop that shifts tokens computes exactly `WalkFrom` |
| Override.OverrideOne | lib/utils.js:72-88 | one variable keeps the tree an object and can fail only on a duplicate key or a bad boolean or number |
| Override.OverrideAll | lib/utils.js:71-89 | the variables in order; the result is an object |
| Override.OverrideOneEffect | lib/utils.js:82-88 | one variable leaves the tree unchanged or replaces exactly one truthy value, at a path its name spells (exact last key), by its coerced value |
| Override.OverrideOneAt | lib/utils.js:82-88 | at any surviving path, booleans stay booleans, numbers stay numbers, and falsy values are unchanged |
| Override.OverrideAllNoNewPaths | lib/utils.js:71-89 | the override pass never creates a key: every path of the result was in the input |
| Override.OverrideAllKeepsTypes | lib/utils.js:71-89 | over the whole pass, surviving booleans and numbers keep their type and falsy settings keep their value |
| Override.OverrideOneWrites | lib/utils.js:82-88 | a walk ending at an exact key with a truthy value writes the coerced value at that path |
| Override.WrittenKeyLowerCase | lib/utils.js:72-88 | the key a variable writes holds no capital letter, so a key with capitals is never overridden |
| Override.OverrideOneSkips | lib/utils.js:82 | a walk failing the guard leaves the tree unchanged |
| Override.OverrideOneFails | lib/utils.js:76-88 | a failed walk is the variable's error; a walk passing the guard whose value does not coerce fails with the coercion's error |
| Override.Config.SetPropertyCaseInsensitive | lib/utils.js:33-65 | in place: on error the tree is unchanged; otherwise the object at the path is replaced by `SetProperty`'s result |
| Override.Config.OverrideFromSystemVariables | lib/utils.js:67-90 | in place: the new tree and the error (if any) are exactly `OverrideAll` of the old tree |
| OverrideExamples.NestedExample | test/utils.test.js:41-46 | `MY_TEST=test` sets `my.test` |
| OverrideExamples.TopLevelExample | test/utils.test.js:48-53 | `SINGLE=single` sets `single` |
| OverrideExamples.KebabExample | test/utils.test.js:94 | on a one-key configuration, `SINGLE-TEST` sets the key `single-test` |
| OverrideExamples.KebabTestExample | test/utils.test.js:92-108 | on the test's configuration, `SINGLE-TEST` and `TEST_SINGLE-TEST` set `single-test` and `test.single-test` without error |
| OverrideExamples.WalkLongerTestVar | test/utils.test.js:55-70 | `LONGER_TEST_VAR` walks down to `longer.test` and stops at `var` |
| OverrideExamples.DeepExample | test/utils.test.js:55-70 | `COMPOSE_VAR` and `LONGER_TEST_VAR` set `compose.var` and the three-level `longer.test.var`, without error |
| OverrideExamples.UndefinedKeyExample | lib/utils.js:76-88 | with no key `foo`, `FOO_X=b` goes down into the key "undefined" and sets `undefined.x` |
| OverrideExamples.SplitNameExample | test/utils.test.js:72-90 | `COM_POSE_VAR` leaves `compose.var` unchanged |
| OverrideExamples.JoinedNameExample | test/utils.test.js:72-90 | `LONGER_TESTVAR` leaves `longer.test.var` unchanged |
| OverrideExamples.LeftoverTokensExample | lib/utils.js:76-82 | leftover tokens are ignored: `SINGLE_EXTRA` sets `single` |
| OverrideExamples.SubtreeReplacedExample | lib/utils.js:61-63 | a name stopping at an object replaces the whole object by the string |
| OverrideExamples.MixedCaseKeyExample | lib/utils.js:82 | `MYKEY` finds `myKey` but fails the exact-key guard, so nothing changes |
| OverrideExamples.FalsyValueExample | lib/utils.js:82 | a `false` setting is not overridden |
| Merge.MergeDeep | lib/utils.js:93-106 | the result is a fresh object; for two objects its keys are the union of theirs; an object target with a non-object source is returned as it is (the same code is lib/autoConfig.js:18-31) |
| Merge.MergeFieldValues | lib/utils.js:94-103 | for two objects: a target-only key keeps its value, a non-object source value replaces the target's (even an object), a source-only key is copied, and two objects under one key are merged recursively (the same code is lib/autoConfig.js:19-28) |
| Merge.MergeEmptySource | lib/autoConfig.js:19-28 | `mergeDeep(T, {}) == T` for an object T |
| Merge.MergeEmptyTarget | lib/autoConfig.js:19-28 | `mergeDeep({}, T) == T` for an object T |
| Merge.MergeSelf | lib/utils.js:93-106 | merging an object with itself gives it back |
| Merge.MergeNonObjectTarget | lib/autoConfig.js:19-30 | a non-object target is spread and the source ignored: `{}` for booleans, numbers and null, index keys for strings and arrays |
| Merge.MergeLosesSourceUnderScalar | lib/utils.js:96-99 | a source object meeting a target scalar under the same key is lost; the key holds the spread of the scalar |
| Merge.MergeFits | lib/utils.js:93-106 | merging two documents that fit a schema gives one that fits it |
| Merge.MergeSourceWins | lib/utils.js:96-102 | every leaf of the source is in the merge (non-map source values replace, maps merge recursively) |
| Merge.MergeTargetSurvives | lib/utils.js:94-103 | for target and source fitting one schema (`FitsAt`), every leaf of the target that the source does not define is in the merge |
| Merge.MergeFromFits | lib/autoConfig.js:44-51 | a fold of fitting documents fits |
| Merge.MergeFromLastWins | lib/autoConfig.js:44-51 | in a fold, a leaf takes its value from the last document defining it |
| Loader.LoadYaml | lib/utils.js:108-111 | the parsed document of the profile, or an error naming the profile exactly when there is none |
| Loader.IncludeOf | lib/utils.js:123 | `include` of an empty document throws; otherwise present exactly when the document is an object with that key |
| Loader.Enqueue | lib/utils.js:123-130 | a truthy non-array include throws naming the root profile, exactly then; otherwise the queue is kept as the tail, behind the array's entries in reverse order |
| Loader.Step | lib/utils.js:123-136 | a pass fails only on an empty document, a bad include or a missing profile; otherwise it keeps the result, or reads one profile's document and merges it into the result |
| Loader.Run | lib/utils.js:122-137 | the loop fails only on an empty document, a bad include, a missing profile, or never ending |
| Loader.Configuration | lib/utils.js:114-140 | a missing root profile is an error naming it; a configuration is an object; no other errors than the loop's |
| Loader.Reversed | lib/utils.js:129 | the list reversed: same length, element i is element n-1-i |
| Loader.UnshiftAll | lib/utils.js:129 | unshifting the items one by one puts them in front of the queue in reverse order |
| Loader.Pass | lib/utils.js:123-136 | one pass of the loop body computes exactly `Step` |
| Loader.LoadConfiguration | lib/utils.js:114-140 | reading the root and running the loop computes exactly `Configuration` |
| Loader.Loop | lib/utils.js:122-137 | the do-while loop with its queue, from any state, computes exactly `Run` |
| Loader.ConfigurationIsFinish | lib/utils.js:139 | proof step, unfolds `Configuration`: the loop's result with the root merged over it, or the loop's error |
| Loader.ConfigurationOfRun | lib/utils.js:139 | proof step, unfolds `Configuration`: when the loop yields x, x with the root merged over it |
| Loader.RunContinues | lib/utils.js:137 | proof step, unfolds `Run`: a pass that leaves entries in the queue hands over to the next pass |
| Loader.RunStops | lib/utils.js:137 | proof step, unfolds `Run`: a pass that empties the queue ends the loop with its result |
| Loader.RunFails | lib/utils.js:122-137 | proof step, unfolds `Run`: a pass that throws ends the loop with its error |
| Loader.RunShape | lib/utils.js:122-137 | the loop's result is a left fold of merges over profile documents |
| Loader.ConfigurationShape | lib/utils.js:114-140 | the configuration is a fold of profile documents with the root merged last |
| Loader.RootWins | lib/utils.js:139 | every leaf of the root profile is in the configuration |
| Loader.RunIncludeError | lib/utils.js:123-128 | a non-array include anywhere in the loop reports the profile given to the loader |
| Loader.IncludeErrorNamesRoot | lib/utils.js:123-128 | the include error names the root profile, whichever document is at fault |
| Loader.NoIncludes | lib/utils.js:123-139 | a root without a truthy include is the configuration |
| Loader.SingleInclude | lib/utils.js:129-139 | one include is merged under the root, and its own includes are never read |
| Loader.TwoIncludes | lib/utils.js:129-139 | `include: [a, b]` merges b, then a, then the root: the first listed wins |
| Loader.LastQueued | lib/utils.js:132-137 | the last profile in the queue, after a document without includes, is merged and ends the loop |
| Loader.RootIncludeNotArray | lib/utils.js:123-127 | a truthy non-array include in the root is an error naming the root profile |
| Loader.MissingIncludeFails | lib/utils.js:123-135 | a root including `[name]` with no document for `name` fails naming `name` |
| Loader.IncludePairFirstStep | lib/utils.js:123-137 | with `include: [a, b]` the first pass reads b and leaves a in the queue |
| Loader.NestedIncludesTail | lib/utils.js:122-137 | b's own include c goes in front of a: c is merged next, then a |
| Loader.NestedIncludesRun | lib/utils.js:122-137 | root `[a, b]` with b including `[c]`: the loop merges b, c, a in that order |
| Loader.NestedIncludes | lib/utils.js:114-140 | the configuration is b, then c, then a, then the root: the nested include c overrides its includer b |
| Loader.EmptyEntryLoops | lib/utils.js:129-137 | with a falsy last entry in a root list of two or more entries, every pass re-queues the root's includes |
| Loader.EmptyEntryDiverges | lib/utils.js:113-140 | so a root whose list of two or more entries ends with a falsy one never yields a configuration |
| Loader.LoneEmptyEntry | lib/utils.js:122-139 | a root whose list is a single falsy entry is its own configuration |
| AutoConfig.IncludeField | lib/autoConfig.js:40 | `confObj.include` of an empty document throws; a truthy value read is the document's `include` |
| AutoConfig.LoadConfig | lib/autoConfig.js:38-54 | the result is an object containing every key of the document; the never-firing array check produces no include-not-array error; an object whose `include` is truthy but not an array fails as not iterable |
| AutoConfig.MissingIncludeFails | lib/autoConfig.js:44-47 | a document including `[name]` with no document for `name` fails naming `name` |
| AutoConfig.ResolveAll | lib/autoConfig.js:44-51 | one resolved configuration per entry, each the resolution one level deeper of the profile the entry names |
| AutoConfig.LoadConfigFits | lib/autoConfig.js:38-54 | resolving fitting documents gives a fitting configuration |
| AutoConfig.ResolveAllFits | lib/autoConfig.js:44-51 | every resolved entry of fitting documents fits |
| AutoConfig.LoadedFit | lib/autoConfig.js:45-50 | proof step: profiles resolved one level down, one per entry, fit the schema |
| AutoConfig.IncluderWins | lib/autoConfig.js:53 | every leaf of the including document is in its configuration |
| AutoConfig.LaterIncludeWins | lib/autoConfig.js:44-53 | a leaf of resolved entry i is in the configuration when no later entry and not the document defines it |
| AutoConfig.SingleIncludeResolves | lib/autoConfig.js:44-50 | a document including only `a` resolves only if `a` exists and resolves one level deeper |
| AutoConfig.SingleIncludeWins | lib/autoConfig.js:44-53 | for documents fitting one schema (`Resolves`), a leaf of the resolved include that the document lacks is in its configuration |
| AutoConfig.ResolvedKeepsLeaf | lib/autoConfig.js:53 | a leaf of an included profile survives that profile's own resolution |
| AutoConfig.IncludedLeafWins | lib/autoConfig.js:47-50 | for documents fitting one schema (`Resolves`), root includes `[A]`: a leaf of A that the root lacks is in the configuration |
| AutoConfig.IncludedLeafHas | lib/autoConfig.js:47-50 | for documents fitting one schema (`Resolves`), one level down: the resolution of A, which includes only A2, holds a leaf of A2 that A lacks |
| AutoConfig.TransitiveLeafWins | lib/autoConfig.js:47-50 | for documents fitting one schema (`Resolves`), root includes `[A]`, A includes `[A2]`: a leaf of A2 that neither defines is in the configuration (root > A > A2) |
| AutoConfig.NoIncludeIdentity | lib/autoConfig.js:40-53 | a document without a truthy include resolves to itself, `include` key kept |
| AutoConfig.ResolvePlainPair | lib/autoConfig.js:44-51 | two includes without includes resolve to themselves, in order |
| AutoConfig.IncludeOrderDiffers | lib/autoConfig.js:44-53 | for `include: [a, b]` both defining a leaf, `loadConfig` keeps b's value while `loadConfiguration` (lib/utils.js:129-139) keeps a's |

## Left out

- File I/O and YAML parsing (`loadYamlFile`, `lib/utils.js:108-111`; the reads at `lib/autoConfig.js:45-46,67-69`): replaced by the `docs` map; a profile missing from it stands for a file that cannot be read.
- `init` and `getConfig` (`lib/autoConfig.js:56-79`): the module-level global, the `NODE_ENV` default, `console.warn`, the error wrapping and `delete config.include` are process plumbing; the test at `test/autoConfig.test.js:6-8` expects a message other than the one line 57 throws.
- The `process.env` default (`lib/utils.js:69`) and its iteration order: the variables are an explicit sequence applied in order.
- `hasValue` (`lib/utils.js:9-11`): unused by the modelled code.
- Error message texts: errors are constructors carrying the names the messages mention.
- Floating point: numbers are integers; `Number()` is modelled on "", optionally signed decimal integers, and NaN for everything else (hex, exponents, fractions and surrounding whitespace are not modelled).
- Unicode: `toLowerCase` is modelled for ASCII letters only.
- Prototype-chain effects of `key in target` (`lib/utils.js:98`) and of `currentObj[currentProp]` (`lib/utils.js:82`), such as inherited keys like `constructor`.
- Aliasing: nested objects are values, so an object shared by two parts of a tree, or between an included document and the result, is not modelled; an update in place is a replacement along the path.
- Loader.Configuration: circular includes never terminate in the source; the loop is bounded by `fuel` passes and running out is the `Diverged` error.
- AutoConfig.LoadConfig: the recursion is bounded by `depth` levels of includes; running out is the `Diverged` error.
- CaseInsensitive.Coerce: numbers are integers only, see floating point above.
- Merge.MergeSourceWins: stated for documents fitting one schema, because a source object meeting a target scalar is lost.
- Loader.RootWins: stated for documents fitting one schema, for the same reason.
- AutoConfig.IncluderWins: stated for documents fitting one schema, for the same reason.
- AutoConfig.LaterIncludeWins: stated for documents fitting one schema, for the same reason.
- Merge.MergeFromLastWins: stated for documents fitting one schema, for the same reason.

=== FILE: auto_config.dfy ===
/** `loadConfig` (autoConfig.js:38-54), the recursive include resolution:
    each entry of a document's `include` list is read and resolved in turn,
    the results are merged left to right, and the document itself is merged
    last. The YAML files are a parameter: `docs` maps a profile name to its
    parsed document. */
module AutoConfig {
  import opened Wrappers
  import opened Values
  import opened Merge
  import Loader

  /** `confObj.include`, undefined standing as null (both are falsy): an
      empty document has no properties to read. */
  function IncludeField(doc: Value): (r: Result<Value, Error>)
    ensures r.Err? <==> doc.Null?
    ensures r.Err? ==> r.error == NoDocument
    ensures r.Ok? && Truthy(r.value) ==> doc.Obj? && "include" in doc.fields && r.value == doc.fields["include"]
  {
    var included :- Loader.IncludeOf(doc);
    Ok(if included.Some? then included.value else Null)
  }

  /** `loadConfig(confObj, ...)` with at most `depth` levels of nested
      includes. The check of autoConfig.js:41 tests the document rather than
      its `include`, so it never fires; a truthy `include` that is not an
      array fails instead when `forEach` is called on it. */
  function LoadConfig(docs: map<string, Value>, doc: Value, depth: nat): (r: Result<Value, Error>)
    ensures r.Ok? ==> r.value.Obj?
    ensures r.Ok? && IsObject(doc) ==> doc.fields.Keys <= r.value.fields.Keys
    ensures r.Err? ==> !r.error.IncludeNotArray?
    ensures doc.Obj? && "include" in doc.fields && Truthy(doc.fields["include"]) && !doc.fields["include"].Arr? ==>
              r == Err(IncludeNotIterable)
    decreases depth, 1
  {
    var included :- IncludeField(doc);
    if !Truthy(included) then Ok(MergeDeep(Obj(map[]), doc))
    else if !included.Arr? then Err(IncludeNotIterable)
    else
      var resolved :- ResolveAll(docs, included.items, depth);
      Ok(MergeDeep(MergeFrom(Obj(map[]), resolved), doc))
  }

  /** The `forEach` of autoConfig.js:44-51: every entry names a profile
      (through a template string), whose document is read and resolved one
      level deeper; an entry is resolved only after all entries before it. */
  function ResolveAll(docs: map<string, Value>, items: seq<Value>, depth: nat): (r: Result<seq<Value>, Error>)
    ensures r.Ok? ==> |r.value| == |items|
    ensures r.Err? ==> !r.error.IncludeNotArray?
    ensures r.Ok? ==> forall i :: 0 <= i < |items| ==>
      depth >= 1 && ToJsString(items[i]) in docs
      && LoadConfig(docs, docs[ToJsString(items[i])], depth - 1) == Ok(r.value[i])
    decreases depth, 0, |items|
  {
    if items == [] then Ok([])
    else if depth == 0 then Err(Diverged)
    else
      var done :- ResolveAll(docs, items[..|items| - 1], depth);
      var name := ToJsString(items[|items| - 1]);
      var sub :- Loader.LoadYaml(docs, name);
      var r :- LoadConfig(docs, sub, depth - 1);
      Ok(done + [r])
  }

  /** An included profile with no document is an error naming it, and
      nothing is merged. */
  lemma MissingIncludeFails(docs: map<string, Value>, doc: Value, depth: nat, name: string)
    requires depth >= 1 && name !in docs
    requires doc.Obj? && "include" in doc.fields && doc.fields["include"] == Arr([Str(name)])
    ensures LoadConfig(docs, doc, depth) == Err(LoadFailed(name))
  {
    assert [Str(name)][..0] == [];
    assert ResolveAll(docs, [], depth) == Ok([]);
  }

  /** Every document fits the schema `isMap`. */
  ghost predicate AllFit(docs: map<string, Value>, isMap: Path -> bool) {
    forall name :: name in docs ==> FitsAt(docs[name], isMap, [])
  }

  lemma DocFits(docs: map<string, Value>, isMap: Path -> bool, name: string)
    requires AllFit(docs, isMap) && name in docs
    ensures FitsAt(docs[name], isMap, [])
  {
  }

  /** `doc` resolves within `depth` levels, and it and every profile fit
      the schema `isMap`. */
  ghost predicate Resolves(docs: map<string, Value>, isMap: Path -> bool, doc: Value, depth: nat) {
    AllFit(docs, isMap) && FitsAt(doc, isMap, []) && LoadConfig(docs, doc, depth).Ok?
  }

  /** A leaf setting (not an object) at a non-empty path. */
  ghost predicate Setting(p: Path, x: Value) {
    |p| >= 1 && !x.Obj?
  }

  /** Resolving documents that fit a schema gives a configuration that fits it. */
  lemma {:induction false} LoadConfigFits(docs: map<string, Value>, doc: Value, depth: nat, isMap: Path -> bool)
    requires Resolves(docs, isMap, doc, depth)
    ensures FitsAt(LoadConfig(docs, doc, depth).value, isMap, [])
    decreases depth, 1, 0
  {
    var included := IncludeField(doc).value;
    if !Truthy(included) {
      MergeFits(Obj(map[]), doc, isMap, []);
    } else {
      var resolved := ResolveAll(docs, included.items, depth).value;
      ResolveAllFits(docs, included.items, depth, isMap);
      MergeFromFits(Obj(map[]), resolved, isMap);
      MergeFits(MergeFrom(Obj(map[]), resolved), doc, isMap, []);
    }
  }

  lemma ResolveAllFits(docs: map<string, Value>, items: seq<Value>, depth: nat, isMap: Path -> bool)
    requires AllFit(docs, isMap) && ResolveAll(docs, items, depth).Ok?
    ensures forall i :: 0 <= i < |items| ==> FitsAt(ResolveAll(docs, items, depth).value[i], isMap, [])
    decreases depth, 0
  {
    LoadedFit(docs, items, depth, isMap, ResolveAll(docs, items, depth).value);
  }

  /** Profiles loaded one level down, one per entry, fit the schema. */
  lemma {:induction false} LoadedFit(docs: map<string, Value>, items: seq<Value>, depth: nat, isMap: Path -> bool, rs: seq<Value>)
    requires AllFit(docs, isMap) && |rs| == |items|
    requires forall i :: 0 <= i < |items| ==>
      depth >= 1 && ToJsString(items[i]) in docs && LoadConfig(docs, docs[ToJsString(items[i])], depth - 1) == Ok(rs[i])
    ensures forall i :: 0 <= i < |items| ==> FitsAt(rs[i], isMap, [])
    decreases depth, 0, 0
  {
    forall i | 0 <= i < |items|
      ensures FitsAt(rs[i], isMap, [])
    {
      LoadConfigFits(docs, docs[ToJsString(items[i])], depth - 1, isMap);
    }
  }

  /** The including document is merged last (autoConfig.js:53): every leaf
      of it is in the configuration, whatever its includes say. */
  lemma IncluderWins(docs: map<string, Value>, doc: Value, depth: nat, isMap: Path -> bool, p: Path, x: Value)
    requires Resolves(docs, isMap, doc, depth)
    requires Setting(p, x) && Lookup(doc, p) == Some(x)
    ensures Lookup(LoadConfig(docs, doc, depth).value, p) == Some(x)
  {
    var included := IncludeField(doc).value;
    if !Truthy(included) {
      MergeSourceWins(Obj(map[]), doc, isMap, [], p, x);
    } else {
      var resolved := ResolveAll(docs, included.items, depth).value;
      ResolveAllFits(docs, included.items, depth, isMap);
      MergeFromFits(Obj(map[]), resolved, isMap);
      MergeSourceWins(MergeFrom(Obj(map[]), resolved), doc, isMap, [], p, x);
    }
  }

  /** The include list is folded left to right (autoConfig.js:44-51): a leaf
      of the resolved entry `i` is in the configuration when no later entry
      and not the document itself defines it. */
  lemma LaterIncludeWins(docs: map<string, Value>, doc: Value, depth: nat, isMap: Path -> bool, i: nat, p: Path, x: Value)
    requires Resolves(docs, isMap, doc, depth)
    requires doc.Obj? && "include" in doc.fields && doc.fields["include"].Arr?
    requires i < |doc.fields["include"].items|
    requires var rs := ResolveAll(docs, doc.fields["include"].items, depth).value;
      && Setting(p, x) && Lookup(rs[i], p) == Some(x)
      && (forall j :: i < j < |rs| ==> Lookup(rs[j], p) == None)
    requires Lookup(doc, p) == None
    ensures Lookup(LoadConfig(docs, doc, depth).value, p) == Some(x)
  {
    var items := doc.fields["include"].items;
    var resolved := ResolveAll(docs, items, depth).value;
    ResolveAllFits(docs, items, depth, isMap);
    MergeFromLastWins(Obj(map[]), resolved, isMap, i, p, x);
    MergeFromFits(Obj(map[]), resolved, isMap);
    MergeTargetSurvives(MergeFrom(Obj(map[]), resolved), doc, isMap, [], p, x);
  }

  /** `doc` is an object whose `include` lists `name` alone. */
  ghost predicate IncludesOnly(doc: Value, name: string) {
    doc.Obj? && "include" in doc.fields && doc.fields["include"] == Arr([Str(name)])
  }

  /** A document that includes only `name` resolves only when `name` does,
      one level deeper. */
  lemma SingleIncludeResolves(docs: map<string, Value>, isMap: Path -> bool, doc: Value, depth: nat, name: string)
    requires Resolves(docs, isMap, doc, depth)
    requires IncludesOnly(doc, name)
    ensures depth >= 1 && name in docs && Resolves(docs, isMap, docs[name], depth - 1)
  {
    DocFits(docs, isMap, name);
    assert ToJsString(Str(name)) == name;
    var resolved := ResolveAll(docs, [Str(name)], depth).value;
  }

  /** A document that includes only `name` takes the leaves of `name`'s
      resolution that it does not define itself. */
  lemma SingleIncludeWins(docs: map<string, Value>, doc: Value, depth: nat, isMap: Path -> bool, name: string, p: Path, x: Value)
    requires Resolves(docs, isMap, doc, depth)
    requires IncludesOnly(doc, name)
    requires Setting(p, x) && Lookup(doc, p) == None
    requires IncludeHas(docs, name, depth, p, x)
    ensures Lookup(LoadConfig(docs, doc, depth).value, p) == Some(x)
  {
    assert ToJsString(Str(name)) == name;
    var resolved := ResolveAll(docs, [Str(name)], depth).value;
    LaterIncludeWins(docs, doc, depth, isMap, 0, p, x);
  }

  /** The document `name`, resolved with one level fewer than `depth`,
      holds `x` at `p`. */
  ghost predicate IncludeHas(docs: map<string, Value>, name: string, depth: nat, p: Path, x: Value)
  {
    depth >= 1 && name in docs && LoadConfig(docs, docs[name], depth - 1).Ok?
    && Lookup(LoadConfig(docs, docs[name], depth - 1).value, p) == Some(x)
  }

  /** A leaf of the document `name` survives its own resolution. */
  lemma ResolvedKeepsLeaf(docs: map<string, Value>, name: string, depth: nat, isMap: Path -> bool, p: Path, x: Value)
    requires depth >= 1 && name in docs && Resolves(docs, isMap, docs[name], depth - 1)
    requires Setting(p, x) && Lookup(docs[name], p) == Some(x)
    ensures IncludeHas(docs, name, depth, p, x)
  {
    IncluderWins(docs, docs[name], depth - 1, isMap, p, x);
  }

  /** Nested includes are resolved before their includer is merged
      (autoConfig.js:47-50): when the root includes only `a`, a leaf of `a`
      that the root does not define reaches the configuration. */
  lemma IncludedLeafWins(docs: map<string, Value>, root: Value, depth: nat, isMap: Path -> bool, a: string, p: Path, x: Value)
    requires Resolves(docs, isMap, root, depth)
    requires IncludesOnly(root, a)
    requires Setting(p, x) && Lookup(root, p) == None
    requires a in docs && Lookup(docs[a], p) == Some(x)
    ensures Lookup(LoadConfig(docs, root, depth).value, p) == Some(x)
  {
    SingleIncludeResolves(docs, isMap, root, depth, a);
    ResolvedKeepsLeaf(docs, a, depth, isMap, p, x);
    SingleIncludeWins(docs, root, depth, isMap, a, p, x);
  }

  /** `IncludedLeafWins` one level down: the resolution of `a`, which
      includes only `a2`, holds the leaf of `a2` that `a` does not define. */
  lemma IncludedLeafHas(docs: map<string, Value>, a: string, depth: nat, isMap: Path -> bool, a2: string, p: Path, x: Value)
    requires depth >= 1 && a in docs && Resolves(docs, isMap, docs[a], depth - 1)
    requires IncludesOnly(docs[a], a2)
    requires Setting(p, x) && Lookup(docs[a], p) == None
    requires a2 in docs && Lookup(docs[a2], p) == Some(x)
    ensures IncludeHas(docs, a, depth, p, x)
  {
    IncludedLeafWins(docs, docs[a], depth - 1, isMap, a2, p, x);
  }

  /** Includes are transitive: when the root includes only `a` and `a`
      includes only `a2`, a leaf of `a2` that neither defines reaches the
      configuration. */
  lemma TransitiveLeafWins(docs: map<string, Value>, root: Value, depth: nat, isMap: Path -> bool, a: string, a2: string, p: Path, x: Value)
    requires Resolves(docs, isMap, root, depth)
    requires IncludesOnly(root, a)
    requires a in docs && IncludesOnly(docs[a], a2)
    requires Setting(p, x) && Lookup(root, p) == None && Lookup(docs[a], p) == None
    requires a2 in docs && Lookup(docs[a2], p) == Some(x)
    ensures Lookup(LoadConfig(docs, root, depth).value, p) == Some(x)
  {
    SingleIncludeResolves(docs, isMap, root, depth, a);
    IncludedLeafHas(docs, a, depth, isMap, a2, p, x);
    SingleIncludeWins(docs, root, depth, isMap, a, p, x);
  }

  /** A document without a truthy `include` resolves to itself, and an
      `include` key it has stays in the result (autoConfig.js:40,53). */
  lemma NoIncludeIdentity(docs: map<string, Value>, doc: Value, depth: nat)
    requires doc.Obj? && ("include" !in doc.fields || !Truthy(doc.fields["include"]))
    ensures LoadConfig(docs, doc, depth) == Ok(doc)
  {
    MergeEmptyTarget(doc);
  }

  /** Two plain includes resolve to themselves, in order. */
  lemma ResolvePlainPair(docs: map<string, Value>, depth: nat, a: string, b: string)
    requires depth >= 1 && a in docs && b in docs
    requires docs[a].Obj? && "include" !in docs[a].fields && docs[b].Obj? && "include" !in docs[b].fields
    ensures ResolveAll(docs, [Str(a), Str(b)], depth) == Ok([docs[a], docs[b]])
  {
    assert ToJsString(Str(a)) == a && ToJsString(Str(b)) == b;
    NoIncludeIdentity(docs, docs[a], depth - 1);
    NoIncludeIdentity(docs, docs[b], depth - 1);
    assert Loader.LoadYaml(docs, a) == Ok(docs[a]) && Loader.LoadYaml(docs, b) == Ok(docs[b]);
    assert [Str(a)][..0] == [];
    assert ResolveAll(docs, [], depth) == Ok([]);
    assert [] + [docs[a]] == [docs[a]];
    assert ResolveAll(docs, [Str(a)], depth) == Ok([docs[a]]);
    assert [Str(a), Str(b)][..1] == [Str(a)];
    assert [docs[a]] + [docs[b]] == [docs[a], docs[b]];
  }

  /** The two loaders order the include list oppositely. When the root
      includes `a` and then `b`, both plain and both defining a leaf the
      root leaves open, `loadConfiguration` (utils.js:129-139) keeps the
      value of `a`, because it reads the list back to front and merges in
      that order, while `loadConfig` (autoConfig.js:44-53) keeps the value
      of `b`. */
  lemma IncludeOrderDiffers(docs: map<string, Value>, profile: string, fuel: nat, depth: nat, isMap: Path -> bool,
                            a: string, b: string, p: Path, x: Value, y: Value)
    requires AllFit(docs, isMap) && profile in docs && docs[profile].Obj? && fuel >= 2 && depth >= 1
    requires "include" in docs[profile].fields && docs[profile].fields["include"] == Arr([Str(a), Str(b)])
    requires a != "" && a in docs && docs[a].Obj? && "include" !in docs[a].fields
    requires b != "" && b in docs && docs[b].Obj? && "include" !in docs[b].fields
    requires |p| >= 1 && Lookup(docs[profile], p) == None
    requires Lookup(docs[a], p) == Some(x) && !x.Obj? && Lookup(docs[b], p) == Some(y) && !y.Obj?
    ensures Loader.Configuration(docs, profile, fuel).Ok?
    ensures Lookup(Loader.Configuration(docs, profile, fuel).value, p) == Some(x)
    ensures LoadConfig(docs, docs[profile], depth).Ok?
    ensures Lookup(LoadConfig(docs, docs[profile], depth).value, p) == Some(y)
  {
    var root := docs[profile];
    DocFits(docs, isMap, profile);
    DocFits(docs, isMap, a);
    DocFits(docs, isMap, b);
    Loader.TwoIncludes(docs, profile, fuel, a, b);
    var first := MergeDeep(Obj(map[]), docs[b]);
    MergeFits(Obj(map[]), docs[b], isMap, []);
    MergeSourceWins(first, docs[a], isMap, [], p, x);
    MergeFits(first, docs[a], isMap, []);
    MergeTargetSurvives(MergeDeep(first, docs[a]), root, isMap, [], p, x);
    ResolvePlainPair(docs, depth, a, b);
    LaterIncludeWins(docs, root, depth, isMap, 1, p, y);
  }
}

=== FILE: load_configuration.dfy ===
/** `loadConfiguration` (utils.js:114-140): the root profile's document is
    read, the profiles its `include` lists are queued and merged in turn,
    and the root document is merged last. The YAML files are a parameter:
    `docs` maps a profile name to its parsed document. */
module Loader {
  import opened Wrappers
  import opened Values
  import opened Merge

  /** `loadYamlFile(configDirectory, profile)`: the parsed document of the
      profile, or an error when there is none. */
  function LoadYaml(docs: map<string, Value>, profile: string): (r: Result<Value, Error>)
    ensures r.Ok? <==> profile in docs
    ensures r.Ok? ==> r.value == docs[profile]
    ensures r.Err? ==> r.error == LoadFailed(profile)
  {
    if profile in docs then Ok(docs[profile]) else Err(LoadFailed(profile))
  }

  /** `doc.include`: reading a property of an empty document throws; any
      value other than an object has no `include`. */
  function IncludeOf(doc: Value): (r: Result<Option<Value>, Error>)
    ensures r.Err? <==> doc.Null?
    ensures r.Err? ==> r.error == NoDocument
    ensures r.Ok? && r.value.Some? <==> doc.Obj? && "include" in doc.fields
    ensures r.Ok? && r.value.Some? ==> r.value.value == doc.fields["include"]
  {
    match doc
    case Null => Err(NoDocument)
    case Obj(m) => Ok(if "include" in m then Some(m["include"]) else None)
    case _ => Ok(None)
  }

  /** `xs` in reverse order. */
  function Reversed(xs: seq<Value>): (r: seq<Value>)
    ensures |r| == |xs|
    ensures forall i :: 0 <= i < |xs| ==> r[i] == xs[|xs| - 1 - i]
    decreases |xs|
  {
    if xs == [] then [] else [xs[|xs| - 1]] + Reversed(xs[..|xs| - 1])
  }

  /** The state of the do-while loop of utils.js:122-137. */
  datatype Walk = Walk(queue: seq<Value>, result: Value, current: Value)

  /** utils.js:123-130: a truthy `include` of the current document must be an
      array, whose entries are put in front of the queue one by one, which
      reverses them. The error names the profile given to the loader, not
      the document at fault. */
  function Enqueue(profile: string, included: Option<Value>, queue: seq<Value>): (r: Result<seq<Value>, Error>)
    ensures r.Err? <==> included.Some? && Truthy(included.value) && !included.value.Arr?
    ensures r.Err? ==> r.error == IncludeNotArray(profile)
    ensures r.Ok? ==> |queue| <= |r.value| && r.value[|r.value| - |queue|..] == queue
    ensures r.Ok? && included.Some? && included.value.Arr? ==>
              var items := included.value.items;
              |r.value| == |items| + |queue| && forall i :: 0 <= i < |items| ==> r.value[i] == items[|items| - 1 - i]
  {
    if included.Some? && Truthy(included.value) then
      if included.value.Arr? then Ok(Reversed(included.value.items) + queue)
      else Err(IncludeNotArray(profile))
    else Ok(queue)
  }

  /** One pass of the loop body: enqueue the current document's includes,
      take the first entry of the queue, and when it is truthy read that
      profile and merge it into the result. */
  function Step(docs: map<string, Value>, profile: string, w: Walk): (r: Result<Walk, Error>)
    ensures r.Err? ==> r.error == NoDocument || r.error == IncludeNotArray(profile) || r.error.LoadFailed?
    ensures r.Ok? ==> (r.value.current == w.current && r.value.result == w.result)
                      || (r.value.current in docs.Values && r.value.result == MergeDeep(w.result, r.value.current))
  {
    var included :- IncludeOf(w.current);
    var queue :- Enqueue(profile, included, w.queue);
    if queue == [] then Ok(Walk([], w.result, w.current))
    else if !Truthy(queue[0]) then Ok(Walk(queue[1..], w.result, w.current))
    else
      var doc :- LoadYaml(docs, ToJsString(queue[0]));
      Ok(Walk(queue[1..], MergeDeep(w.result, doc), doc))
  }

  /** The loop, run for at most `fuel` passes: it stops after the pass that
      leaves the queue empty. Running out of fuel stands for the loop never
      ending, which the source allows on circular includes. */
  function Run(docs: map<string, Value>, profile: string, w: Walk, fuel: nat): (r: Result<Value, Error>)
    ensures r.Err? ==> r.error == NoDocument || r.error == IncludeNotArray(profile) || r.error.LoadFailed? || r.error == Diverged
    decreases fuel
  {
    if fuel == 0 then Err(Diverged)
    else
      var next :- Step(docs, profile, w);
      if next.queue == [] then Ok(next.result) else Run(docs, profile, next, fuel - 1)
  }

  /** The configuration `loadConfiguration` returns for `profile`. */
  function Configuration(docs: map<string, Value>, profile: string, fuel: nat): (r: Result<Value, Error>)
    ensures profile !in docs ==> r == Err(LoadFailed(profile))
    ensures r.Ok? ==> profile in docs && r.value.Obj?
    ensures r.Err? ==> r.error == NoDocument || r.error == IncludeNotArray(profile) || r.error.LoadFailed? || r.error == Diverged
  {
    var root :- LoadYaml(docs, profile);
    var result :- Run(docs, profile, Walk([], Obj(map[]), root), fuel);
    Ok(MergeDeep(result, root))
  }

  /** `items.forEach(p => queue.unshift(p))`. */
  method UnshiftAll(items: seq<Value>, queue: seq<Value>) returns (q: seq<Value>)
    ensures q == Reversed(items) + queue
  {
    q := queue;
    for i := 0 to |items|
      invariant q == Reversed(items[..i]) + queue
    {
      assert items[..i + 1][..i] == items[..i];
      q := [items[i]] + q;
    }
    assert items[..|items|] == items;
  }

  /** One pass of the loop body on the queue, the result and the current
      document. */
  method Pass(docs: map<string, Value>, profile: string, queue: seq<Value>, result: Value, current: Value)
    returns (r: Result<Walk, Error>)
    ensures r == Step(docs, profile, Walk(queue, result, current))
  {
    var included := IncludeOf(current);
    if included.Err? {
      return Err(included.error);
    }
    var q := queue;
    if included.value.Some? && Truthy(included.value.value) {
      if !included.value.value.Arr? {
        return Err(IncludeNotArray(profile));
      }
      q := UnshiftAll(included.value.value.items, q);
    }
    if q == [] {
      return Ok(Walk([], result, current));
    }
    var entry := q[0];
    q := q[1..];
    if !Truthy(entry) {
      return Ok(Walk(q, result, current));
    }
    var loaded := LoadYaml(docs, ToJsString(entry));
    if loaded.Err? {
      return Err(loaded.error);
    }
    return Ok(Walk(q, MergeDeep(result, loaded.value), loaded.value));
  }

  /** `loadConfiguration(configDirectory, profile)`, bounded to `fuel`
      passes of its loop. */
  method LoadConfiguration(docs: map<string, Value>, profile: string, fuel: nat) returns (r: Result<Value, Error>)
    ensures r == Configuration(docs, profile, fuel)
  {
    var loaded := LoadYaml(docs, profile);
    if loaded.Err? {
      return Err(loaded.error);
    }
    var root := loaded.value;
    ConfigurationIsFinish(docs, profile, fuel);
    var result := Loop(docs, profile, Walk([], Obj(map[]), root), fuel);
    if result.Err? {
      return Err(result.error);
    }
    return Ok(MergeDeep(result.value, root));
  }

  /** The do-while loop of utils.js:122-137, started from the state `start`
      (the root document, an empty queue and an empty result), for at most
      `fuel` passes. */
  method Loop(docs: map<string, Value>, profile: string, start: Walk, fuel: nat) returns (r: Result<Value, Error>)
    ensures r == Run(docs, profile, start, fuel)
  {
    var queue, result, current := start.queue, start.result, start.current;
    var passes := fuel;
    while true
      invariant Run(docs, profile, start, fuel) == Run(docs, profile, Walk(queue, result, current), passes)
      decreases passes
    {
      if passes == 0 {
        return Err(Diverged);
      }
      var next := Pass(docs, profile, queue, result, current);
      if next.Err? {
        RunFails(docs, profile, Walk(queue, result, current), passes);
        return Err(next.error);
      }
      if next.value.queue == [] {
        RunStops(docs, profile, Walk(queue, result, current), next.value, passes);
        return Ok(next.value.result);
      }
      RunContinues(docs, profile, Walk(queue, result, current), next.value, passes);
      queue, result, current := next.value.queue, next.value.result, next.value.current;
      passes := passes - 1;
    }
  }

  /** The root document merged over the result of the loop. */
  function Finish(r: Result<Value, Error>, root: Value): Result<Value, Error> {
    if r.Err? then r else Ok(MergeDeep(r.value, root))
  }

  /** The configuration is the loop's result with the root merged last. */
  lemma ConfigurationIsFinish(docs: map<string, Value>, profile: string, fuel: nat)
    requires profile in docs
    ensures Configuration(docs, profile, fuel) == Finish(Run(docs, profile, Walk([], Obj(map[]), docs[profile]), fuel), docs[profile])
  {
  }

  /** When the loop yields `x`, the configuration is `x` with the root merged over it. */
  lemma ConfigurationOfRun(docs: map<string, Value>, profile: string, fuel: nat, x: Value)
    requires profile in docs && Run(docs, profile, Walk([], Obj(map[]), docs[profile]), fuel) == Ok(x)
    ensures Configuration(docs, profile, fuel) == Ok(MergeDeep(x, docs[profile]))
  {
  }

  /** A pass that leaves entries in the queue hands over to the next pass. */
  lemma RunContinues(docs: map<string, Value>, profile: string, w: Walk, next: Walk, fuel: nat)
    requires fuel >= 1 && Step(docs, profile, w) == Ok(next) && next.queue != []
    ensures Run(docs, profile, w, fuel) == Run(docs, profile, next, fuel - 1)
  {
  }

  /** A pass that fails ends the loop with its error. */
  lemma RunFails(docs: map<string, Value>, profile: string, w: Walk, fuel: nat)
    requires fuel >= 1 && Step(docs, profile, w).Err?
    ensures Run(docs, profile, w, fuel) == Err(Step(docs, profile, w).error)
  {
  }

  /** A pass that empties the queue ends the loop with its result. */
  lemma RunStops(docs: map<string, Value>, profile: string, w: Walk, next: Walk, fuel: nat)
    requires fuel >= 1 && Step(docs, profile, w) == Ok(next) && next.queue == []
    ensures Run(docs, profile, w, fuel) == Ok(next.result)
  {
  }

  /** Every document of `ds` is one of the profiles' documents. */
  ghost predicate FromDocs(ds: seq<Value>, docs: map<string, Value>) {
    forall i :: 0 <= i < |ds| ==> ds[i] in docs.Values
  }

  lemma {:induction false} RunShape(docs: map<string, Value>, profile: string, w: Walk, fuel: nat, ds: seq<Value>)
    requires FromDocs(ds, docs) && w.result == MergeFrom(Obj(map[]), ds)
    requires Run(docs, profile, w, fuel).Ok?
    ensures exists ds' :: FromDocs(ds', docs) && Run(docs, profile, w, fuel).value == MergeFrom(Obj(map[]), ds')
    decreases fuel
  {
    var next := Step(docs, profile, w).value;
    var ds' := if next.result == w.result then ds else ds + [next.current];
    if next.result != w.result {
      assert ds'[..|ds'| - 1] == ds;
    }
    assert FromDocs(ds', docs) && next.result == MergeFrom(Obj(map[]), ds');
    if next.queue == [] {
      assert Run(docs, profile, w, fuel).value == next.result;
    } else {
      RunShape(docs, profile, next, fuel - 1, ds');
    }
  }

  /** The configuration is the root document merged over a sequence of the
      profiles' documents, merged in order onto an empty object. */
  lemma ConfigurationShape(docs: map<string, Value>, profile: string, fuel: nat)
    requires Configuration(docs, profile, fuel).Ok?
    ensures profile in docs
    ensures exists ds :: FromDocs(ds, docs)
              && Configuration(docs, profile, fuel).value == MergeFrom(Obj(map[]), ds + [docs[profile]])
  {
    var root := docs[profile];
    RunShape(docs, profile, Walk([], Obj(map[]), root), fuel, []);
    var ds :| FromDocs(ds, docs) && Run(docs, profile, Walk([], Obj(map[]), root), fuel).value == MergeFrom(Obj(map[]), ds);
    assert (ds + [root])[..|ds + [root]| - 1] == ds;
  }

  /** When all documents fit one schema, every leaf of the root profile is
      in the configuration: the root document overrides everything it includes. */
  lemma RootWins(docs: map<string, Value>, profile: string, fuel: nat, isMap: Path -> bool, p: Path, x: Value)
    requires Configuration(docs, profile, fuel).Ok?
    requires forall d :: d in docs.Values ==> FitsAt(d, isMap, [])
    requires profile in docs && |p| >= 1 && Lookup(docs[profile], p) == Some(x) && !x.Obj?
    ensures Lookup(Configuration(docs, profile, fuel).value, p) == Some(x)
  {
    ConfigurationShape(docs, profile, fuel);
    var ds :| FromDocs(ds, docs)
              && Configuration(docs, profile, fuel).value == MergeFrom(Obj(map[]), ds + [docs[profile]]);
    var all := ds + [docs[profile]];
    assert forall i :: 0 <= i < |all| ==> FitsAt(all[i], isMap, []) by {
      forall i | 0 <= i < |all| ensures FitsAt(all[i], isMap, []) {
        if i < |ds| { assert all[i] == ds[i]; }
      }
    }
    MergeFromLastWins(Obj(map[]), all, isMap, |ds|, p, x);
  }

  lemma {:induction false} RunIncludeError(docs: map<string, Value>, profile: string, w: Walk, fuel: nat, name: string)
    requires Run(docs, profile, w, fuel) == Err(IncludeNotArray(name))
    ensures name == profile
    decreases fuel
  {
    var next := Step(docs, profile, w);
    if next.Ok? && next.value.queue != [] {
      RunIncludeError(docs, profile, next.value, fuel - 1, name);
    }
  }

  /** A non-array `include` anywhere is reported under the profile given to
      the loader, whichever document holds it. */
  lemma IncludeErrorNamesRoot(docs: map<string, Value>, profile: string, fuel: nat, name: string)
    requires Configuration(docs, profile, fuel) == Err(IncludeNotArray(name))
    ensures name == profile
  {
    RunIncludeError(docs, profile, Walk([], Obj(map[]), docs[profile]), fuel, name);
  }

  /** A root document without a truthy `include` is the configuration. */
  lemma NoIncludes(docs: map<string, Value>, profile: string, fuel: nat)
    requires profile in docs && docs[profile].Obj? && fuel >= 1
    requires "include" !in docs[profile].fields || !Truthy(docs[profile].fields["include"])
    ensures Configuration(docs, profile, fuel) == Ok(docs[profile])
  {
    MergeEmptyTarget(docs[profile]);
  }

  /** With a single include, the included profile is merged under the root
      and its own `include` is never read: the loop stops as soon as the
      queue is empty. */
  lemma SingleInclude(docs: map<string, Value>, profile: string, fuel: nat, a: string)
    requires profile in docs && docs[profile].Obj? && fuel >= 1
    requires "include" in docs[profile].fields && docs[profile].fields["include"] == Arr([Str(a)])
    requires a != "" && a in docs
    ensures Configuration(docs, profile, fuel) == Ok(MergeDeep(MergeDeep(Obj(map[]), docs[a]), docs[profile]))
  {
    assert Reversed([Str(a)]) == [Str(a)];
  }

  /** Two includes are merged in reverse order, so the first one listed
      overrides the second; here the second has no includes of its own. */
  lemma TwoIncludes(docs: map<string, Value>, profile: string, fuel: nat, a: string, b: string)
    requires profile in docs && docs[profile].Obj? && fuel >= 2
    requires "include" in docs[profile].fields && docs[profile].fields["include"] == Arr([Str(a), Str(b)])
    requires a != "" && a in docs && b != "" && b in docs
    requires docs[b].Obj? && "include" !in docs[b].fields
    ensures Configuration(docs, profile, fuel)
         == Ok(MergeDeep(MergeDeep(MergeDeep(Obj(map[]), docs[b]), docs[a]), docs[profile]))
  {
    var empty := Obj(map[]);
    IncludePairFirstStep(docs, profile, fuel, empty, docs[profile], a, b);
    LastQueued(docs, profile, fuel - 1, MergeDeep(empty, docs[b]), docs[b], a);
    ConfigurationOfRun(docs, profile, fuel, MergeDeep(MergeDeep(empty, docs[b]), docs[a]));
  }

  /** The last profile in the queue, read after a document without
      includes, is merged and ends the loop. */
  lemma LastQueued(docs: map<string, Value>, profile: string, fuel: nat, acc: Value, current: Value, a: string)
    requires fuel >= 1 && current.Obj? && "include" !in current.fields
    requires a != "" && a in docs
    ensures Run(docs, profile, Walk([Str(a)], acc, current), fuel) == Ok(MergeDeep(acc, docs[a]))
  {
    assert [Str(a)][1..] == [];
    var next := Walk([], MergeDeep(acc, docs[a]), docs[a]);
    assert Step(docs, profile, Walk([Str(a)], acc, current)) == Ok(next);
    RunStops(docs, profile, Walk([Str(a)], acc, current), next, fuel);
  }

  /** An included profile with no document is an error naming it. */
  lemma MissingIncludeFails(docs: map<string, Value>, profile: string, fuel: nat, name: string)
    requires profile in docs && docs[profile].Obj? && fuel >= 1
    requires "include" in docs[profile].fields && docs[profile].fields["include"] == Arr([Str(name)])
    requires name != "" && name !in docs
    ensures Configuration(docs, profile, fuel) == Err(LoadFailed(name))
  {
    assert Reversed([Str(name)]) == [Str(name)];
  }

  /** A truthy `include` of the root document that is not an array is an
      error before any profile is read. */
  lemma RootIncludeNotArray(docs: map<string, Value>, profile: string, fuel: nat)
    requires profile in docs && docs[profile].Obj? && fuel >= 1
    requires "include" in docs[profile].fields
    requires Truthy(docs[profile].fields["include"]) && !docs[profile].fields["include"].Arr?
    ensures Configuration(docs, profile, fuel) == Err(IncludeNotArray(profile))
  {
  }

  /** The passes of `NestedIncludes` after the first: `b`'s own include `c`
      is put in front of `a`, read next, and `a` comes last. */
  lemma NestedIncludesTail(docs: map<string, Value>, profile: string, fuel: nat, acc: Value, a: string, b: string, c: string)
    requires fuel >= 2
    requires a != "" && a in docs && b in docs && c != "" && c in docs
    requires docs[b].Obj? && "include" in docs[b].fields && docs[b].fields["include"] == Arr([Str(c)])
    requires docs[c].Obj? && "include" !in docs[c].fields
    ensures Run(docs, profile, Walk([Str(a)], acc, docs[b]), fuel)
         == Ok(MergeDeep(MergeDeep(acc, docs[c]), docs[a]))
  {
    var w := Walk([Str(a)], acc, docs[b]);
    assert Reversed([Str(c)]) == [Str(c)];
    assert [Str(c)] + [Str(a)] == [Str(c), Str(a)];
    assert Enqueue(profile, Some(Arr([Str(c)])), [Str(a)]) == Ok([Str(c), Str(a)]);
    assert [Str(c), Str(a)][1..] == [Str(a)] && [Str(a)][1..] == [];
    var w2 := Walk([Str(a)], MergeDeep(acc, docs[c]), docs[c]);
    assert Step(docs, profile, w) == Ok(w2);
    RunContinues(docs, profile, w, w2, fuel);
    LastQueued(docs, profile, fuel - 1, w2.result, docs[c], a);
  }

  /** The first pass over a document with `include: [a, b]` reads `b` and
      leaves `a` in the queue. */
  lemma IncludePairFirstStep(docs: map<string, Value>, profile: string, fuel: nat, acc: Value, doc: Value, a: string, b: string)
    requires doc.Obj? && fuel >= 1
    requires "include" in doc.fields && doc.fields["include"] == Arr([Str(a), Str(b)])
    requires b != "" && b in docs
    ensures Run(docs, profile, Walk([], acc, doc), fuel)
         == Run(docs, profile, Walk([Str(a)], MergeDeep(acc, docs[b]), docs[b]), fuel - 1)
  {
    assert Reversed([Str(a), Str(b)]) == [Str(b), Str(a)];
    assert [Str(b), Str(a)] + [] == [Str(b), Str(a)];
    assert Enqueue(profile, Some(Arr([Str(a), Str(b)])), []) == Ok([Str(b), Str(a)]);
    assert [Str(b), Str(a)][1..] == [Str(a)];
    var w1 := Walk([Str(a)], MergeDeep(acc, docs[b]), docs[b]);
    assert Step(docs, profile, Walk([], acc, doc)) == Ok(w1);
    RunContinues(docs, profile, Walk([], acc, doc), w1, fuel);
  }

  /** The loop over a document with `include: [a, b]` where `b` includes
      `c`, starting from the result `acc`. */
  lemma NestedIncludesRun(docs: map<string, Value>, profile: string, fuel: nat, acc: Value, doc: Value, a: string, b: string, c: string)
    requires doc.Obj? && fuel >= 3
    requires "include" in doc.fields && doc.fields["include"] == Arr([Str(a), Str(b)])
    requires a != "" && a in docs && b != "" && b in docs && c != "" && c in docs
    requires docs[b].Obj? && "include" in docs[b].fields && docs[b].fields["include"] == Arr([Str(c)])
    requires docs[c].Obj? && "include" !in docs[c].fields
    ensures Run(docs, profile, Walk([], acc, doc), fuel)
         == Ok(MergeDeep(MergeDeep(MergeDeep(acc, docs[b]), docs[c]), docs[a]))
  {
    IncludePairFirstStep(docs, profile, fuel, acc, doc, a, b);
    NestedIncludesTail(docs, profile, fuel - 1, MergeDeep(acc, docs[b]), a, b, c);
  }

  /** Includes are followed depth first: with `include: [a, b]` in the root
      and `include: [c]` in `b`, the order of merging is `b`, `c`, `a`, then
      the root, so the nested include overrides the profile that includes it. */
  lemma NestedIncludes(docs: map<string, Value>, profile: string, fuel: nat, a: string, b: string, c: string)
    requires profile in docs && docs[profile].Obj? && fuel >= 3
    requires "include" in docs[profile].fields && docs[profile].fields["include"] == Arr([Str(a), Str(b)])
    requires a != "" && a in docs && b != "" && b in docs && c != "" && c in docs
    requires docs[b].Obj? && "include" in docs[b].fields && docs[b].fields["include"] == Arr([Str(c)])
    requires docs[c].Obj? && "include" !in docs[c].fields
    ensures Configuration(docs, profile, fuel)
         == Ok(MergeDeep(MergeDeep(MergeDeep(MergeDeep(Obj(map[]), docs[b]), docs[c]), docs[a]), docs[profile]))
  {
    var empty := Obj(map[]);
    NestedIncludesRun(docs, profile, fuel, empty, docs[profile], a, b, c);
    ConfigurationOfRun(docs, profile, fuel, MergeDeep(MergeDeep(MergeDeep(empty, docs[b]), docs[c]), docs[a]));
  }

  /** A root whose `include` list is one falsy entry is its own
      configuration: the entry is queued, taken, skipped, and the queue is
      empty. */
  lemma LoneEmptyEntry(docs: map<string, Value>, profile: string, fuel: nat, e: Value)
    requires profile in docs && docs[profile].Obj? && fuel >= 1
    requires "include" in docs[profile].fields && docs[profile].fields["include"] == Arr([e])
    requires !Truthy(e)
    ensures Configuration(docs, profile, fuel) == Ok(docs[profile])
  {
    assert Reversed([e]) == [e];
    assert [e][1..] == [];
    MergeEmptyTarget(docs[profile]);
  }

  /** An empty profile name at the end of a root `include` list of two or
      more entries makes the loader run forever: the empty entry is taken first and skipped,
      the current document stays the root, and the root's includes are
      queued again on every pass. */
  lemma {:induction false} EmptyEntryLoops(docs: map<string, Value>, profile: string, q: seq<Value>, result: Value, fuel: nat, items: seq<Value>)
    requires profile in docs && docs[profile].Obj?
    requires "include" in docs[profile].fields && docs[profile].fields["include"] == Arr(items)
    requires |items| >= 2 && !Truthy(items[|items| - 1])
    ensures Run(docs, profile, Walk(q, result, docs[profile]), fuel) == Err(Diverged)
    decreases fuel
  {
    if fuel > 0 {
      var queue := Reversed(items) + q;
      assert queue[0] == items[|items| - 1];
      assert Step(docs, profile, Walk(q, result, docs[profile])) == Ok(Walk(queue[1..], result, docs[profile]));
      EmptyEntryLoops(docs, profile, queue[1..], result, fuel - 1, items);
    }
  }

  /** Hence `include: [a, '']` in the root never yields a configuration;
      with `include: ['']` alone the loop ends (`LoneEmptyEntry`). */
  lemma EmptyEntryDiverges(docs: map<string, Value>, profile: string, fuel: nat, items: seq<Value>)
    requires profile in docs && docs[profile].Obj?
    requires "include" in docs[profile].fields && docs[profile].fields["include"] == Arr(items)
    requires |items| >= 2 && !Truthy(items[|items| - 1])
    ensures Configuration(docs, profile, fuel) == Err(Diverged)
  {
    EmptyEntryLoops(docs, profile, [], Obj(map[]), fuel, items);
  }
}

=== FILE: lookup.dfy ===
/** Case-insensitive property access on one configuration object:
    `getPropertyNameCaseInsensitive`, `getPropertyCaseInsensitive` and
    `setPropertyCaseInsensitive` (utils.js:13-65), with the coercion of an
    environment string to the type of the value it replaces. */
module CaseInsensitive {
  import opened Wrappers
  import opened Text
  import opened Values

  /** True when `k` equals `property` after lower-casing both. */
  predicate SameName(k: string, property: string) {
    Lower(k) == Lower(property)
  }

  /** The one element of a singleton set. */
  function TheElement(s: set<string>): (x: string)
    requires |s| == 1
    ensures s == {x}
  {
    var x :| x in s;
    assert |s - {x}| == 0;
    x
  }

  /** `getPropertyNameCaseInsensitive` (utils.js:13-21): the key of `m` equal
      to `property` after lower-casing, None (undefined) when there is none,
      and an error naming the property when there are several. */
  function GetPropertyName(m: map<string, Value>, property: string): (r: Result<Option<string>, Error>)
    ensures r.Err? <==>
      exists a, b :: a in m && b in m && a != b && SameName(a, property) && SameName(b, property)
    ensures r.Err? ==> r.error == DuplicateProperty(property)
    ensures r == Ok(None) <==> forall k :: k in m ==> !SameName(k, property)
    ensures r.Ok? && r.value.Some? ==>
      && r.value.value in m && SameName(r.value.value, property)
      && forall k :: k in m && SameName(k, property) ==> k == r.value.value
  {
    var matches := set k | k in m && SameName(k, property);
    if |matches| > 1 then
      var a :| a in matches;
      assert |matches - {a}| == |matches| - 1;
      var b :| b in matches - {a};
      Err(DuplicateProperty(property))
    else if |matches| == 0 then
      assert forall k :: k in m ==> k !in matches;
      Ok(None)
    else
      var k := TheElement(matches);
      assert forall a :: a in m && SameName(a, property) ==> a == k by {
        forall a | a in m && SameName(a, property) ensures a == k {
          assert a in matches;
        }
      }
      Ok(Some(k))
  }

  /** A key that is the only one equal to `property` after lower-casing is
      the one found. */
  lemma UniqueNameFound(m: map<string, Value>, property: string, k: string)
    requires k in m && SameName(k, property)
    requires forall k' :: k' in m && k' != k ==> !SameName(k', property)
    ensures GetPropertyName(m, property) == Ok(Some(k))
  {
  }

  /** The key `object[getPropertyNameCaseInsensitive(object, property)]`
      reads: the key found, or else the key "undefined", because indexing an
      object with `undefined` reads the property named "undefined". */
  function KeyRead(m: map<string, Value>, property: string): (r: Result<Option<string>, Error>)
    ensures r.Err? <==> GetPropertyName(m, property).Err?
    ensures r.Ok? && r.value.Some? ==> r.value.value in m
    ensures GetPropertyName(m, property).Ok? && GetPropertyName(m, property).value.Some? ==> r == GetPropertyName(m, property)
    ensures GetPropertyName(m, property) == Ok(None) ==> r == Ok(if "undefined" in m then Some("undefined") else None)
  {
    var name :- GetPropertyName(m, property);
    if name.Some? then Ok(name)
    else if "undefined" in m then Ok(Some("undefined"))
    else Ok(None)
  }

  /** `getPropertyCaseInsensitive` (utils.js:23-25): the value under the key
      found by GetPropertyName; with no key found, the value under
      "undefined", if any. */
  function GetPropertyCaseInsensitive(m: map<string, Value>, property: string): (r: Result<Option<Value>, Error>)
    ensures r.Err? <==> GetPropertyName(m, property).Err?
    ensures r.Ok? && (exists k :: k in m && SameName(k, property)) ==>
      r.value.Some? && exists k :: k in m && SameName(k, property) && m[k] == r.value.value
    ensures (forall k :: k in m ==> !SameName(k, property)) ==>
      r == Ok(if "undefined" in m then Some(m["undefined"]) else None)
  {
    var key :- KeyRead(m, property);
    if key.Some? then Ok(Some(m[key.value])) else Ok(None)
  }

  /** The misses exercised by the project's tests: another word, a prefix,
      a longer word and the empty object find nothing. */
  lemma LookupMisses()
    ensures GetPropertyCaseInsensitive(map[], "hello") == Ok(None)
    ensures GetPropertyCaseInsensitive(map["hello" := Num(1)], "test") == Ok(None)
    ensures GetPropertyCaseInsensitive(map["hello" := Num(1)], "HelloWorld") == Ok(None)
    ensures GetPropertyCaseInsensitive(map["hello" := Num(1)], "hell") == Ok(None)
  {
    assert Lower("hello") != Lower("test") by { assert Lower("hello")[0] == 'h'; }
    assert Lower("hello") != Lower("HelloWorld") by { assert |Lower("HelloWorld")| == 10; }
  }

  /** The hits exercised by the project's tests: any capitalisation of an
      existing key finds it, and two keys differing only in case are an
      error. */
  lemma LookupExamples()
    ensures GetPropertyCaseInsensitive(map["test" := Num(1)], "test") == Ok(Some(Num(1)))
    ensures GetPropertyCaseInsensitive(map["test" := Num(1)], "TEST") == Ok(Some(Num(1)))
    ensures GetPropertyCaseInsensitive(map["test" := Num(1)], "tEst") == Ok(Some(Num(1)))
    ensures GetPropertyCaseInsensitive(map["test" := Num(1), "Test" := Num(2)], "test")
              == Err(DuplicateProperty("test"))
  {
    assert Lower("TEST") == "test";
    assert Lower("tEst") == "test";
    assert Lower("Test") == "test";
    assert Lower("test") == "test";
    UniqueNameFound(map["test" := Num(1)], "test", "test");
    UniqueNameFound(map["test" := Num(1)], "TEST", "test");
    UniqueNameFound(map["test" := Num(1)], "tEst", "test");
    var dup := map["test" := Num(1), "Test" := Num(2)];
    assert "test" in dup && "Test" in dup && SameName("test", "test") && SameName("Test", "test");
  }

  /** The new value of a property whose current value is `current`
      (utils.js:42-64): a boolean accepts only "true" or "false" in any
      case, a number accepts what Number() parses, and any other value is
      replaced by the string itself. */
  function Coerce(propName: string, current: Value, value: string): (r: Result<Value, Error>)
    ensures r.Ok? ==> !r.value.Obj? && (current.Bool? <==> r.value.Bool?) && (current.Num? <==> r.value.Num?)
    ensures r.Err? <==> (current.Bool? && Lower(value) != "true" && Lower(value) != "false")
                        || (current.Num? && ParseNumber(value).None?)
    ensures current.Bool? && Lower(value) == "true" ==> r == Ok(Bool(true))
    ensures current.Bool? && Lower(value) == "false" ==> r == Ok(Bool(false))
    ensures current.Num? && ParseNumber(value).Some? ==> r == Ok(Num(ParseNumber(value).value))
    ensures !current.Bool? && !current.Num? ==> r == Ok(Str(value))
    ensures r.Err? ==> r.error == (if current.Bool? then NotBoolean(propName, value) else NotNumber(propName, value))
  {
    match current
    case Bool(_) =>
      if Lower(value) != "true" && Lower(value) != "false" then Err(NotBoolean(propName, value))
      else Ok(Bool(Lower(value) == "true"))
    case Num(_) =>
      (match ParseNumber(value)
       case None => Err(NotNumber(propName, value))
       case Some(n) => Ok(Num(n)))
    case _ => Ok(Str(value))
  }

  /** Writing a value back in its own type round-trips: booleans in any
      capitalisation, integers in decimal, strings verbatim. */
  lemma CoerceRoundTrip(propName: string, b0: bool, b: bool, n0: int, n: int, s0: string, s: string)
    ensures Coerce(propName, Bool(b0), if b then "true" else "false") == Ok(Bool(b))
    ensures Coerce(propName, Bool(b0), if b then "TRUE" else "False") == Ok(Bool(b))
    ensures Coerce(propName, Num(n0), IntToString(n)) == Ok(Num(n))
    ensures Coerce(propName, Str(s0), s) == Ok(Str(s))
  {
    assert Lower("true") == "true" && Lower("TRUE") == "true";
    assert Lower("false") == "false" && Lower("False") == "false";
    ParseNumberRoundTrip(n);
  }

  /** `setPropertyCaseInsensitive` (utils.js:33-65) as a function of the
      object's fields: the key found case-insensitively receives the
      coerced value; duplicate keys, a missing key (also the key "", which
      the source takes for a missing one) or a failed coercion is an error. */
  function SetProperty(m: map<string, Value>, property: string, value: string): (r: Result<map<string, Value>, Error>)
    ensures GetPropertyName(m, property).Err? ==> r == Err(DuplicateProperty(property))
    ensures GetPropertyName(m, property).Ok? && (property == "" || forall k :: k in m ==> !SameName(k, property)) ==>
              r == Err(NonExistingProperty(property, value))
    ensures forall k :: GetPropertyName(m, property) == Ok(Some(k)) && k != "" ==>
              r == (match Coerce(k, m[k], value)
                    case Ok(v) => Ok(m[k := v])
                    case Err(e) => Err(e))
    ensures r.Ok? ==> r.value.Keys == m.Keys
    ensures r.Ok? ==> forall k :: k in m && !SameName(k, property) ==> r.value[k] == m[k]
    ensures r.Ok? ==> exists k :: k in m && SameName(k, property) && Coerce(k, m[k], value) == Ok(r.value[k])
  {
    var name :- GetPropertyName(m, property);
    if name.None? || name.value == "" then
      assert property == "" ==> name.None? || name.value == "" by {
        if property == "" && name.Some? { assert |Lower(name.value)| == 0; }
      }
      Err(NonExistingProperty(property, value))
    else
      var k := name.value;
      var v :- Coerce(k, m[k], value);
      Ok(m[k := v])
  }
}

=== FILE: merge.dfy ===
/** `mergeDeep`, written twice with the same code (utils.js:93-106 and
    autoConfig.js:18-31) and defined once here, and what it guarantees about
    the paths of its result. Values are immutable, so neither input can be
    changed by a merge. */
module Merge {
  import opened Wrappers
  import opened Values

  /** `mergeDeep(target, source)`: a fresh object holding the spread of
      `target`; when both are objects, every key of `source` is copied over
      it, except that an object under a key the target also has is merged
      recursively. The recursion happens even when the target's value under
      that key is not an object, in which case it yields the spread of that
      value and the source's object is lost. */
  function MergeDeep(target: Value, source: Value): (r: Value)
    ensures r.Obj?
    ensures IsObject(target) && IsObject(source) ==>
              r.fields.Keys == target.fields.Keys + source.fields.Keys
    ensures IsObject(target) && !IsObject(source) ==> r == target
    decreases source
  {
    if IsObject(target) && IsObject(source) then
      Obj(map k | k in target.fields.Keys + source.fields.Keys ::
        if k !in source.fields then target.fields[k]
        else if IsObject(source.fields[k]) && k in target.fields then
          MergeDeep(target.fields[k], source.fields[k])
        else source.fields[k])
    else Obj(Spread(target))
  }

  /** What each key of a merge of two objects holds: a key only the target
      has keeps its value, a source value that is not an object replaces the
      target's, a source object under a new key is copied, and a source
      object under a key both have is merged into the target's value. */
  lemma MergeFieldValues(t: Value, s: Value)
    requires t.Obj? && s.Obj?
    ensures forall k :: k in t.fields && k !in s.fields ==> MergeDeep(t, s).fields[k] == t.fields[k]
    ensures forall k :: k in s.fields && !s.fields[k].Obj? ==> MergeDeep(t, s).fields[k] == s.fields[k]
    ensures forall k :: k in s.fields && k !in t.fields ==> MergeDeep(t, s).fields[k] == s.fields[k]
    ensures forall k :: k in t.fields && k in s.fields && s.fields[k].Obj? ==>
              MergeDeep(t, s).fields[k] == MergeDeep(t.fields[k], s.fields[k])
  {
  }

  /** Merging the empty object into an object gives that object back. */
  lemma MergeEmptySource(t: Value)
    requires t.Obj?
    ensures MergeDeep(t, Obj(map[])) == t
  {
  }

  /** Merging an object into the empty object gives that object back. */
  lemma MergeEmptyTarget(s: Value)
    requires s.Obj?
    ensures MergeDeep(Obj(map[]), s) == s
  {
    assert MergeDeep(Obj(map[]), s).fields == s.fields;
  }

  /** Merging an object with itself gives it back, at every depth. */
  lemma {:induction false} MergeSelf(t: Value)
    requires t.Obj?
    ensures MergeDeep(t, t) == t
    decreases t
  {
    forall k | k in t.fields && t.fields[k].Obj?
      ensures MergeDeep(t.fields[k], t.fields[k]) == t.fields[k]
    {
      MergeSelf(t.fields[k]);
    }
    assert MergeDeep(t, t).fields == t.fields;
  }

  /** A target that is not an object is spread and the source is ignored:
      booleans, numbers and null give the empty object, strings and arrays
      an object keyed by index. */
  lemma MergeNonObjectTarget(t: Value, s: Value)
    requires !t.Obj?
    ensures MergeDeep(t, s) == MergeDeep(t, Obj(map[]))
    ensures t.Bool? || t.Num? || t.Null? ==> MergeDeep(t, s) == Obj(map[])
    ensures t.Arr? ==> MergeDeep(t, s).fields.Keys == IndexKeys(|t.items|)
    ensures t.Str? ==> MergeDeep(t, s).fields.Keys == IndexKeys(|t.s|)
  {
  }

  /** Under an existing key, a source object meeting a target scalar
      disappears: the key ends up holding the spread of the scalar. */
  lemma MergeLosesSourceUnderScalar(t: Value, s: Value, k: string)
    requires t.Obj? && s.Obj? && k in t.fields && k in s.fields
    requires s.fields[k].Obj? && !t.fields[k].Obj?
    ensures MergeDeep(t, s).fields[k] == Obj(Spread(t.fields[k]))
  {
  }

  /** `v`, found at path `at`, agrees with the schema `isMap`: below it, a
      key path holds an object exactly when `isMap` says so. Documents that
      all fit one schema never pair a scalar with an object. */
  ghost predicate FitsAt(v: Value, isMap: Path -> bool, at: Path)
    decreases v
  {
    v.Obj? ==>
      forall k :: k in v.fields ==>
        (v.fields[k].Obj? <==> isMap(at + [k])) && FitsAt(v.fields[k], isMap, at + [k])
  }

  /** Merging two values that fit a schema gives a value that fits it. */
  lemma {:induction false} MergeFits(t: Value, s: Value, isMap: Path -> bool, at: Path)
    requires t.Obj? && FitsAt(t, isMap, at) && FitsAt(s, isMap, at)
    ensures FitsAt(MergeDeep(t, s), isMap, at)
    decreases s
  {
    if s.Obj? {
      var r := MergeDeep(t, s);
      forall k | k in r.fields
        ensures (r.fields[k].Obj? <==> isMap(at + [k])) && FitsAt(r.fields[k], isMap, at + [k])
      {
        if k in s.fields && s.fields[k].Obj? && k in t.fields {
          MergeFits(t.fields[k], s.fields[k], isMap, at + [k]);
        }
      }
    }
  }

  /** Every leaf of the source, below the top, is in the merge unchanged. */
  lemma {:induction false} MergeSourceWins(t: Value, s: Value, isMap: Path -> bool, at: Path, p: Path, x: Value)
    requires t.Obj? && FitsAt(t, isMap, at) && FitsAt(s, isMap, at)
    requires |p| >= 1 && Lookup(s, p) == Some(x) && !x.Obj?
    ensures Lookup(MergeDeep(t, s), p) == Some(x)
    decreases |p|
  {
    var k := p[0];
    var r := MergeDeep(t, s);
    if s.fields[k].Obj? && k in t.fields {
      assert t.fields[k].Obj?;
      assert |p[1..]| >= 1;
      MergeSourceWins(t.fields[k], s.fields[k], isMap, at + [k], p[1..], x);
    }
  }

  /** Every leaf of the target that the source does not reach is in the
      merge unchanged. */
  lemma {:induction false} MergeTargetSurvives(t: Value, s: Value, isMap: Path -> bool, at: Path, p: Path, x: Value)
    requires t.Obj? && FitsAt(t, isMap, at) && FitsAt(s, isMap, at)
    requires Lookup(t, p) == Some(x) && !x.Obj? && Lookup(s, p) == None
    ensures Lookup(MergeDeep(t, s), p) == Some(x)
    decreases |p|
  {
    if s.Obj? {
      var k := p[0];
      if k in s.fields && s.fields[k].Obj? {
        MergeTargetSurvives(t.fields[k], s.fields[k], isMap, at + [k], p[1..], x);
      }
    }
  }

  /** Folds `mergeDeep` over `docs`, left to right, starting from `acc`. */
  function MergeFrom(acc: Value, docs: seq<Value>): (r: Value)
    decreases |docs|
  {
    if docs == [] then acc
    else MergeDeep(MergeFrom(acc, docs[..|docs| - 1]), docs[|docs| - 1])
  }

  lemma {:induction false} MergeFromFits(acc: Value, docs: seq<Value>, isMap: Path -> bool)
    requires acc.Obj? && FitsAt(acc, isMap, [])
    requires forall i :: 0 <= i < |docs| ==> FitsAt(docs[i], isMap, [])
    ensures MergeFrom(acc, docs).Obj? && FitsAt(MergeFrom(acc, docs), isMap, [])
    decreases |docs|
  {
    if docs != [] {
      MergeFromFits(acc, docs[..|docs| - 1], isMap);
      MergeFits(MergeFrom(acc, docs[..|docs| - 1]), docs[|docs| - 1], isMap, []);
    }
  }

  /** Among documents that fit one schema, a leaf takes its value from the
      last document that defines it: later documents override earlier ones. */
  lemma {:induction false} MergeFromLastWins(acc: Value, docs: seq<Value>, isMap: Path -> bool, j: nat, p: Path, x: Value)
    requires acc.Obj? && FitsAt(acc, isMap, [])
    requires forall i :: 0 <= i < |docs| ==> FitsAt(docs[i], isMap, [])
    requires j < |docs| && |p| >= 1 && Lookup(docs[j], p) == Some(x) && !x.Obj?
    requires forall i :: j < i < |docs| ==> Lookup(docs[i], p) == None
    ensures Lookup(MergeFrom(acc, docs), p) == Some(x)
    decreases |docs|
  {
    var init := docs[..|docs| - 1];
    var last := docs[|docs| - 1];
    MergeFromFits(acc, init, isMap);
    if j == |docs| - 1 {
      MergeSourceWins(MergeFrom(acc, init), last, isMap, [], p, x);
    } else {
      MergeFromLastWins(acc, init, isMap, j, p, x);
      MergeTargetSurvives(MergeFrom(acc, init), last, isMap, [], p, x);
    }
  }
}

=== FILE: override.dfy ===
/** `overrideConfigValuesFromSystemVariables` (utils.js:67-90): every
    environment variable whose lower-cased name, split on `_`, walks down to
    an existing truthy property replaces that property's value, coerced to
    its type. The configuration object is changed in place, so the engine
    is a class holding the configuration tree. */
module Override {
  import opened Wrappers
  import opened Text
  import opened Values
  import opened CaseInsensitive

  /** Where the walk for one variable stops: the keys leading to the object
      it stopped in (`currentObj`) and the token taken last (`currentProp`). */
  datatype Target = Target(path: Path, prop: string)

  /** The fields of the object found at `path` (the tree's own when `path` is empty). */
  function NodeAt(tree: Value, path: Path): map<string, Value>
    requires Lookup(tree, path).Some? && Lookup(tree, path).value.Obj?
  {
    Lookup(tree, path).value.fields
  }

  /** The key the walk takes at step `i` of `path`: the object reached by
      the keys before it, read with the token of that step. */
  ghost predicate StepTaken(tree: Value, tokens: seq<string>, path: Path, i: int)
    requires 0 <= i < |path| && |path| <= |tokens|
  {
    && Lookup(tree, path[..i]).Some? && Lookup(tree, path[..i]).value.Obj?
    && KeyRead(Lookup(tree, path[..i]).value.fields, tokens[i]) == Ok(Some(path[i]))
  }

  /** A walk over `tokens` through `tree` ended at `t`: every key of the
      path is the one `getPropertyCaseInsensitive` reads for its token at
      that depth, the object reached has no duplicate of the last token
      taken, and the walk stopped either because the tokens ran out or
      because that token reads no object. */
  ghost predicate WalkEnds(tree: Value, tokens: seq<string>, t: Target) {
    && |t.path| < |tokens|
    && t.prop == tokens[|t.path|]
    && Lookup(tree, t.path).Some? && Lookup(tree, t.path).value.Obj?
    && (forall i :: 0 <= i < |t.path| ==> StepTaken(tree, tokens, t.path, i))
    && KeyRead(NodeAt(tree, t.path), t.prop).Ok?
    && (|t.path| + 1 < |tokens| ==>
          KeyRead(NodeAt(tree, t.path), t.prop).value.None?
          || !NodeAt(tree, t.path)[KeyRead(NodeAt(tree, t.path), t.prop).value.value].Obj?)
  }

  /** A walk that ended at `t` inside the object under `k` ended at `k`
      followed by `t` when it started one level up. */
  lemma WalkEndsUnder(m: map<string, Value>, tokens: seq<string>, k: string, t: Target)
    requires |tokens| > 1 && KeyRead(m, tokens[0]) == Ok(Some(k)) && m[k].Obj?
    requires WalkEnds(m[k], tokens[1..], t)
    ensures WalkEnds(Obj(m), tokens, Target([k] + t.path, t.prop))
  {
    var path := [k] + t.path;
    assert path[1..] == t.path;
    assert Lookup(Obj(m), path) == Lookup(m[k], t.path);
    forall i | 0 <= i < |path|
      ensures StepTaken(Obj(m), tokens, path, i)
    {
      if i == 0 {
        assert path[..0] == [];
      } else {
        assert StepTaken(m[k], tokens[1..], t.path, i - 1);
        assert path[..i][1..] == t.path[..i - 1] && path[..i][0] == k;
        assert Lookup(Obj(m), path[..i]) == Lookup(m[k], t.path[..i - 1]);
      }
    }
  }

  /** The do-while walk of utils.js:76-80 from the object `m`: take a token,
      read the value `getPropertyCaseInsensitive` gives for it, and go on
      into that value while tokens remain and it is an object. Duplicate
      keys on the way are an error. */
  function WalkFrom(m: map<string, Value>, tokens: seq<string>): (r: Result<Target, Error>)
    requires |tokens| >= 1
    ensures r.Err? ==> exists i :: 0 <= i < |tokens| && r.error == DuplicateProperty(tokens[i])
    ensures r.Ok? ==> WalkEnds(Obj(m), tokens, r.value)
    decreases |tokens|
  {
    var key :- KeyRead(m, tokens[0]);
    if |tokens| > 1 && key.Some? && IsObject(m[key.value]) then
      var k := key.value;
      var rest := tokens[1..];
      var t :- WalkFrom(m[k].fields, rest);
      assert forall i :: 0 <= i < |rest| ==> rest[i] == tokens[i + 1];
      WalkEndsUnder(m, tokens, k, t);
      Ok(Target([k] + t.path, t.prop))
    else
      Ok(Target([], tokens[0]))
  }

  /** An object in which no two keys are equal after lower-casing, at
      every depth. */
  ghost predicate CaseDistinct(v: Value)
    decreases v
  {
    v.Obj? ==>
      && (forall a, b :: a in v.fields && b in v.fields && SameName(a, b) ==> a == b)
      && (forall k :: k in v.fields ==> CaseDistinct(v.fields[k]))
  }

  /** The walk took the keys of `p`, one per token, and the object it
      reached there has two keys equal after lower-casing to the token of
      that depth. */
  ghost predicate ClashOnWalk(tree: Value, tokens: seq<string>, p: Path) {
    && |p| < |tokens|
    && (forall i :: 0 <= i < |p| ==> StepTaken(tree, tokens, p, i))
    && Lookup(tree, p).Some? && Lookup(tree, p).value.Obj?
    && GetPropertyName(Lookup(tree, p).value.fields, tokens[|p|]).Err?
  }

  /** The walk from `m` fails with the error for the clash at `p`. */
  ghost predicate FailsAt(m: map<string, Value>, tokens: seq<string>, p: Path)
    requires |tokens| >= 1
  {
    && WalkFrom(m, tokens).Err?
    && ClashOnWalk(Obj(m), tokens, p)
    && WalkFrom(m, tokens).error == DuplicateProperty(tokens[|p|])
  }

  /** The walk fails only on a real clash: an object the walk itself
      reached, through the keys it read, has two keys equal to that step's
      token after lower-casing. */
  lemma {:induction false} WalkErrorIsClash(m: map<string, Value>, tokens: seq<string>)
    requires |tokens| >= 1 && WalkFrom(m, tokens).Err?
    ensures exists p: Path :: FailsAt(m, tokens, p)
    decreases |tokens|
  {
    if GetPropertyName(m, tokens[0]).Err? {
      var q: Path := [];
      assert WalkFrom(m, tokens).error == DuplicateProperty(tokens[|q|]);
      assert ClashOnWalk(Obj(m), tokens, q);
      assert FailsAt(m, tokens, q);
    } else {
      var k := KeyRead(m, tokens[0]).value.value;
      var rest := tokens[1..];
      assert WalkFrom(m, tokens).error == WalkFrom(m[k].fields, rest).error;
      WalkErrorIsClash(m[k].fields, rest);
      var p: Path :| FailsAt(m[k].fields, rest, p);
      assert Obj(m[k].fields) == m[k];
      ClashUnder(m, tokens, k, p);
      var q := [k] + p;
      assert FailsAt(m, tokens, q);
    }
  }

  /** A clash found one level down, under the key `k` the walk reads for
      the first token, is a clash on the walk from the object holding `k`. */
  lemma ClashUnder(m: map<string, Value>, tokens: seq<string>, k: string, p: Path)
    requires |tokens| >= 1 && KeyRead(m, tokens[0]) == Ok(Some(k)) && m[k].Obj?
    requires ClashOnWalk(m[k], tokens[1..], p)
    ensures ClashOnWalk(Obj(m), tokens, [k] + p) && tokens[|[k] + p|] == tokens[1..][|p|]
  {
    var q := [k] + p;
    assert q[0] == k && q[1..] == p;
    assert Lookup(Obj(m), q) == Lookup(m[k], p);
    forall i | 0 <= i < |q|
      ensures StepTaken(Obj(m), tokens, q, i)
    {
      if i == 0 {
        assert q[..0] == [];
      } else {
        assert StepTaken(m[k], tokens[1..], p, i - 1);
        assert q[..i][1..] == p[..i - 1] && q[..i][0] == k;
        assert Lookup(Obj(m), q[..i]) == Lookup(m[k], p[..i - 1]);
      }
    }
  }

  /** Conversely, in a configuration whose keys never clash after
      lower-casing, every walk succeeds. */
  lemma {:induction false} WalkSucceeds(m: map<string, Value>, tokens: seq<string>)
    requires |tokens| >= 1 && CaseDistinct(Obj(m))
    ensures WalkFrom(m, tokens).Ok?
    decreases |tokens|
  {
    if GetPropertyName(m, tokens[0]).Err? {
      var a, b :| a in m && b in m && a != b && SameName(a, tokens[0]) && SameName(b, tokens[0]);
      assert SameName(a, b);
      assert false;
    }
    var key := KeyRead(m, tokens[0]).value;
    if |tokens| > 1 && key.Some? && IsObject(m[key.value]) {
      WalkSucceeds(m[key.value].fields, tokens[1..]);
    }
  }

  /** A walk result moved below `path`. */
  function Under(path: Path, r: Result<Target, Error>): Result<Target, Error> {
    if r.Err? then r else Ok(Target(path + r.value.path, r.value.prop))
  }

  lemma UnderUnder(path: Path, k: string, r: Result<Target, Error>)
    ensures Under(path, Under([k], r)) == Under(path + [k], r)
  {
    if r.Ok? {
      assert path + ([k] + r.value.path) == path + [k] + r.value.path;
    }
  }

  /** One step of the walk: going into the object read under `k`. */
  lemma WalkInto(m: map<string, Value>, tokens: seq<string>, k: string)
    requires |tokens| > 1 && KeyRead(m, tokens[0]) == Ok(Some(k)) && m[k].Obj?
    ensures WalkFrom(m, tokens) == Under([k], WalkFrom(m[k].fields, tokens[1..]))
  {
  }

  /** The walk as the source runs it, one token per iteration. */
  method LocateTarget(root: map<string, Value>, tokens: seq<string>) returns (r: Result<Target, Error>)
    requires |tokens| >= 1
    ensures r == WalkFrom(root, tokens)
  {
    var node := root;
    var path: Path := [];
    var rest := tokens;
    assert WalkFrom(root, tokens).Ok? ==> [] + WalkFrom(root, tokens).value.path == WalkFrom(root, tokens).value.path;
    while true
      invariant |rest| >= 1
      invariant WalkFrom(root, tokens) == Under(path, WalkFrom(node, rest))
      decreases |rest|
    {
      var prop := rest[0];
      var found := KeyRead(node, prop);
      if found.Err? {
        return Err(found.error);
      }
      if !(|rest| > 1 && found.value.Some? && IsObject(node[found.value.value])) {
        assert path + [] == path;
        return Ok(Target(path, prop));
      }
      var k := found.value.value;
      WalkInto(node, rest, k);
      UnderUnder(path, k, WalkFrom(node[k].fields, rest[1..]));
      path := path + [k];
      node := node[k].fields;
      rest := rest[1..];
    }
  }

  /** The guard of utils.js:82: the token taken last is, spelled exactly as
      it is, a key of the object reached, with a truthy value. When it
      holds, writing the property can fail only on a duplicate key or a
      failed coercion, never because the property is missing. */
  predicate Guard(node: map<string, Value>, prop: string): (r: bool)
    ensures r ==> prop in node && Truthy(node[prop])
    ensures r ==> forall value :: SetProperty(node, prop, value).Err? ==> !SetProperty(node, prop, value).error.NonExistingProperty?
  {
    assert SameName(prop, prop);
    prop != "" && prop in node && Truthy(node[prop])
  }

  /** The effect of one variable `name=value` on the tree. Only a duplicate
      key or a failed coercion can go wrong: the property written always exists. */
  function OverrideOne(tree: Value, name: string, value: string): (r: Result<Value, Error>)
    requires tree.Obj?
    ensures r.Ok? ==> r.value.Obj?
    ensures r.Err? ==> r.error.DuplicateProperty? || r.error.NotBoolean? || r.error.NotNumber?
  {
    var t :- WalkFrom(tree.fields, Split(Lower(name)));
    var node := NodeAt(tree, t.path);
    if Guard(node, t.prop) then
      assert SameName(t.prop, t.prop);
      var updated :- SetProperty(node, t.prop, value);
      Ok(SetAt(tree, t.path, Obj(updated)))
    else
      Ok(tree)
  }

  /** The variables applied in order; the first error stops the pass and
      leaves the changes already made. */
  function OverrideAll(tree: Value, vars: seq<(string, string)>): (r: (Value, Option<Error>))
    requires tree.Obj?
    ensures r.0.Obj?
    decreases |vars|
  {
    if vars == [] then (tree, None)
    else
      match OverrideOne(tree, vars[0].0, vars[0].1)
      case Err(e) => (tree, Some(e))
      case Ok(t) => OverrideAll(t, vars[1..])
  }

  /** One variable replaces the value at `p` by `leaf`: the keys of `p`
      are the ones the walk reads for the leading tokens except the last,
      which is the token itself; the value replaced was truthy, and `leaf`
      is the variable's string coerced to that value's type. */
  ghost predicate Replaces(tree: Value, tokens: seq<string>, value: string, p: Path, leaf: Value) {
    && 1 <= |p| <= |tokens|
    && (forall i :: 0 <= i < |p| - 1 ==> StepTaken(tree, tokens, p, i))
    && p[|p| - 1] == tokens[|p| - 1]
    && Lookup(tree, p).Some? && Truthy(Lookup(tree, p).value)
    && Coerce(p[|p| - 1], Lookup(tree, p).value, value) == Ok(leaf)
  }

  /** The keys a walk read are still read, in order, along the path
      extended by the property it stopped at. */
  lemma StepsExtend(tree: Value, tokens: seq<string>, t: Target)
    requires WalkEnds(tree, tokens, t)
    ensures forall i :: 0 <= i < |t.path| ==> StepTaken(tree, tokens, t.path + [t.prop], i)
  {
    var p := t.path + [t.prop];
    forall i | 0 <= i < |t.path|
      ensures StepTaken(tree, tokens, p, i)
    {
      assert StepTaken(tree, tokens, t.path, i);
      assert p[..i] == t.path[..i];
    }
  }

  /** A variable either leaves the tree alone or replaces exactly one
      truthy value, at a path its name spells. */
  lemma OverrideOneEffect(tree: Value, name: string, value: string)
    requires tree.Obj? && OverrideOne(tree, name, value).Ok?
    ensures OverrideOne(tree, name, value).value == tree
         || exists p, leaf :: Replaces(tree, Split(Lower(name)), value, p, leaf)
                              && OverrideOne(tree, name, value).value == SetAt(tree, p, leaf)
  {
    var tokens := Split(Lower(name));
    var t := WalkFrom(tree.fields, tokens).value;
    var node := NodeAt(tree, t.path);
    if Guard(node, t.prop) {
      assert SameName(t.prop, t.prop);
      var leaf := Coerce(t.prop, node[t.prop], value).value;
      var p := t.path + [t.prop];
      SetAtChild(tree, t.path, t.prop, leaf);
      LookupAppend(tree, t.path, [t.prop]);
      assert p[|p| - 1] == t.prop && p[..|p| - 1] == t.path;
      StepsExtend(tree, tokens, t);
      assert Replaces(tree, tokens, value, p, leaf);
    }
  }

  /** At a path that exists before and after one variable, a boolean stays
      a boolean, a number stays a number, and a falsy value (false, 0, '',
      null) is never changed. */
  lemma OverrideOneAt(tree: Value, name: string, value: string, q: Path, y: Value)
    requires tree.Obj? && OverrideOne(tree, name, value).Ok?
    requires Lookup(tree, q) == Some(y) && Lookup(OverrideOne(tree, name, value).value, q).Some?
    ensures var x := Lookup(OverrideOne(tree, name, value).value, q).value;
      (y.Bool? <==> x.Bool?) && (y.Num? <==> x.Num?) && (!Truthy(y) ==> x == y)
  {
    var t' := OverrideOne(tree, name, value).value;
    OverrideOneEffect(tree, name, value);
    if t' != tree {
      var p, leaf :| Replaces(tree, Split(Lower(name)), value, p, leaf) && t' == SetAt(tree, p, leaf);
      if p <= q {
        LookupSetAtBelow(tree, p, leaf, q);
        assert !leaf.Obj?;
        assert q[|p|..] == [];
        assert q == p;
      } else if q <= p {
        LookupPrefixIsObject(tree, q, p);
        LookupSetAtAbove(tree, p, leaf, q);
        SetAtKeepsObject(y, p[|q|..], leaf);
      } else {
        LookupSetAtOther(tree, p, leaf, q);
      }
    }
  }

  /** The override pass never creates a path: every path of the result
      exists in the configuration it started from. */
  lemma {:induction false} OverrideAllNoNewPaths(tree: Value, vars: seq<(string, string)>, q: Path)
    requires tree.Obj? && Lookup(OverrideAll(tree, vars).0, q).Some?
    ensures Lookup(tree, q).Some?
    decreases |vars|
  {
    if vars != [] {
      var r := OverrideOne(tree, vars[0].0, vars[0].1);
      if r.Ok? {
        OverrideAllNoNewPaths(r.value, vars[1..], q);
        OverrideOneEffect(tree, vars[0].0, vars[0].1);
        if r.value != tree {
          var p, leaf :| Replaces(tree, Split(Lower(vars[0].0)), vars[0].1, p, leaf) && r.value == SetAt(tree, p, leaf);
          SetAtNoNewPaths(tree, p, leaf, q);
        }
      }
    }
  }

  /** Over the whole pass, a setting that survives keeps its type when it
      is a boolean or a number, and a falsy setting keeps its value. */
  lemma {:induction false} OverrideAllKeepsTypes(tree: Value, vars: seq<(string, string)>, q: Path, y: Value)
    requires tree.Obj? && Lookup(tree, q) == Some(y) && Lookup(OverrideAll(tree, vars).0, q).Some?
    ensures var x := Lookup(OverrideAll(tree, vars).0, q).value;
      (y.Bool? <==> x.Bool?) && (y.Num? <==> x.Num?) && (!Truthy(y) ==> x == y)
    decreases |vars|
  {
    if vars != [] {
      var r := OverrideOne(tree, vars[0].0, vars[0].1);
      if r.Ok? {
        OverrideAllNoNewPaths(r.value, vars[1..], q);
        OverrideOneAt(tree, vars[0].0, vars[0].1, q, y);
        OverrideAllKeepsTypes(r.value, vars[1..], q, Lookup(r.value, q).value);
      }
    }
  }

  /** Conversely, a walk ending at an exact key with a truthy value
      writes the coerced value there. */
  lemma OverrideOneWrites(tree: Value, name: string, value: string, t: Target, leaf: Value)
    requires tree.Obj? && WalkFrom(tree.fields, Split(Lower(name))) == Ok(t)
    requires Guard(NodeAt(tree, t.path), t.prop)
    requires Coerce(t.prop, NodeAt(tree, t.path)[t.prop], value) == Ok(leaf)
    ensures OverrideOne(tree, name, value) == Ok(SetAt(tree, t.path + [t.prop], leaf))
  {
    assert SameName(t.prop, t.prop);
    SetAtChild(tree, t.path, t.prop, leaf);
  }

  /** The key a variable writes holds no capital letter, so a key with
      capitals is never overridden (the guard of utils.js:82 takes the
      lower-cased token as the key). */
  lemma WrittenKeyLowerCase(tree: Value, name: string, value: string, p: Path, leaf: Value)
    requires Replaces(tree, Split(Lower(name)), value, p, leaf)
    ensures NoCapital(p[|p| - 1])
  {
    LowerTokens(name);
  }

  /** A walk that does not end at an exact key with a truthy value changes nothing. */
  lemma OverrideOneSkips(tree: Value, name: string, value: string, t: Target)
    requires tree.Obj? && WalkFrom(tree.fields, Split(Lower(name))) == Ok(t)
    requires !Guard(NodeAt(tree, t.path), t.prop)
    ensures OverrideOne(tree, name, value) == Ok(tree)
  {
  }

  /** The two ways one variable fails: the walk meets two keys equal after
      lower-casing, or the property it reaches is written and the value does
      not coerce to its type. */
  lemma OverrideOneFails(tree: Value, name: string, value: string, t: Target)
    requires tree.Obj?
    ensures WalkFrom(tree.fields, Split(Lower(name))).Err? ==>
              OverrideOne(tree, name, value) == Err(WalkFrom(tree.fields, Split(Lower(name))).error)
    ensures WalkFrom(tree.fields, Split(Lower(name))) == Ok(t) && Guard(NodeAt(tree, t.path), t.prop)
              && Coerce(t.prop, NodeAt(tree, t.path)[t.prop], value).Err? ==>
              OverrideOne(tree, name, value) == Err(Coerce(t.prop, NodeAt(tree, t.path)[t.prop], value).error)
  {
    if WalkFrom(tree.fields, Split(Lower(name))) == Ok(t) && Guard(NodeAt(tree, t.path), t.prop) {
      assert SameName(t.prop, t.prop);
    }
  }

  /** The configuration object that `overrideConfigValuesFromSystemVariables`
      changes in place. */
  class Config {
    var tree: Value

    ghost predicate Valid()
      reads this
    {
      tree.Obj?
    }

    constructor (initial: Value)
      requires initial.Obj?
      ensures Valid() && tree == initial
    {
      tree := initial;
    }

    /** `setPropertyCaseInsensitive(currentObj, property, value)` on the
        object found at `path`; on an error nothing changes. */
    method SetPropertyCaseInsensitive(path: Path, property: string, value: string) returns (failure: Option<Error>)
      requires Valid() && Lookup(tree, path).Some? && Lookup(tree, path).value.Obj?
      modifies this
      ensures Valid()
      ensures var r := SetProperty(NodeAt(old(tree), path), property, value);
        && (r.Err? ==> failure == Some(r.error) && tree == old(tree))
        && (r.Ok? ==> failure == None && tree == SetAt(old(tree), path, Obj(r.value)))
    {
      var r := SetProperty(NodeAt(tree, path), property, value);
      if r.Err? {
        return Some(r.error);
      }
      SetAtKeepsObject(tree, path, Obj(r.value));
      tree := SetAt(tree, path, Obj(r.value));
      return None;
    }

    /** `overrideConfigValuesFromSystemVariables(this.tree, vars)`: the
        variables, in order, each walk the tree and override the property
        they reach; an error stops the pass. */
    method OverrideFromSystemVariables(vars: seq<(string, string)>) returns (failure: Option<Error>)
      requires Valid()
      modifies this
      ensures Valid()
      ensures (tree, failure) == OverrideAll(old(tree), vars)
    {
      for i := 0 to |vars|
        invariant Valid()
        invariant OverrideAll(old(tree), vars) == OverrideAll(tree, vars[i..])
      {
        var (name, value) := vars[i];
        assert vars[i..][0] == (name, value) && vars[i..][1..] == vars[i + 1..];
        var found := LocateTarget(tree.fields, Split(Lower(name)));
        if found.Err? {
          return Some(found.error);
        }
        var target := found.value;
        if Guard(NodeAt(tree, target.path), target.prop) {
          failure := SetPropertyCaseInsensitive(target.path, target.prop, value);
          if failure.Some? {
            return failure;
          }
        }
      }
      return None;
    }
  }
}

=== FILE: override_examples.dfy ===
/** The behaviour of the override pass on the configurations of the
    project's tests (test/utils.test.js:41-108), and on a few more that show
    the quirks of the walk and of the guard. */
module OverrideExamples {
  import opened Wrappers
  import opened Text
  import opened Values
  import opened CaseInsensitive
  import opened Override

  /** The tokens of a variable name, when its lower-cased form is known. */
  lemma TokensOf(name: string, tokens: seq<string>)
    requires |tokens| >= 1 && forall i :: 0 <= i < |tokens| ==> '_' !in tokens[i]
    requires Lower(name) == Join(tokens)
    ensures Split(Lower(name)) == tokens
  {
    SplitJoin(tokens);
  }

  /** The pass over a single variable. */
  lemma OverrideAllSingle(tree: Value, name: string, value: string, t': Value)
    requires tree.Obj? && OverrideOne(tree, name, value) == Ok(t')
    ensures OverrideAll(tree, [(name, value)]) == (t', None)
  {
    assert [(name, value)][1..] == [];
  }

  /** The walk stops at the top when the first token is the last one or
      does not name an object. */
  lemma WalkStops(m: map<string, Value>, tokens: seq<string>)
    requires |tokens| >= 1 && KeyRead(m, tokens[0]).Ok?
    requires |tokens| == 1 || KeyRead(m, tokens[0]).value.None?
             || !m[KeyRead(m, tokens[0]).value.value].Obj?
    ensures WalkFrom(m, tokens) == Ok(Target([], tokens[0]))
  {
  }

  /** A walk that goes one level down and stops there. */
  lemma WalkOneDown(m: map<string, Value>, tokens: seq<string>, k: string)
    requires |tokens| > 1 && KeyRead(m, tokens[0]) == Ok(Some(k)) && m[k].Obj?
    requires WalkFrom(m[k].fields, tokens[1..]) == Ok(Target([], tokens[1]))
    ensures WalkFrom(m, tokens) == Ok(Target([k], tokens[1]))
  {
    WalkInto(m, tokens, k);
    assert [k] + [] == [k];
  }

  /** Writing over the one key of a one-key map. */
  lemma Overwrite(k: string, a: Value, b: Value)
    ensures map[k := a][k := b] == map[k := b]
  {
  }

  /** A walk ending at a top-level key writes the coerced value there. */
  lemma TopWrites(m: map<string, Value>, name: string, value: string, k: string, leaf: Value)
    requires WalkFrom(m, Split(Lower(name))) == Ok(Target([], k))
    requires k in m && k != "" && Truthy(m[k]) && Coerce(k, m[k], value) == Ok(leaf)
    ensures OverrideOne(Obj(m), name, value) == Ok(Obj(m[k := leaf]))
  {
    OverrideOneWrites(Obj(m), name, value, Target([], k), leaf);
    assert [] + [k] == [k] && [k][1..] == [];
  }

  /** A walk ending one level down writes the coerced value there. */
  lemma SecondWrites(m: map<string, Value>, name: string, value: string, k: string, j: string, leaf: Value)
    requires WalkFrom(m, Split(Lower(name))) == Ok(Target([k], j))
    requires k in m && m[k].Obj? && j in m[k].fields && j != ""
    requires Truthy(m[k].fields[j]) && Coerce(j, m[k].fields[j], value) == Ok(leaf)
    ensures OverrideOne(Obj(m), name, value) == Ok(Obj(m[k := Obj(m[k].fields[j := leaf])]))
  {
    assert [k][1..] == [];
    OverrideOneWrites(Obj(m), name, value, Target([k], j), leaf);
    assert [k] + [j] == [k, j] && [k, j][1..] == [j] && [j][1..] == [];
    assert SetAt(m[k], [j], leaf) == Obj(m[k].fields[j := leaf]);
  }

  lemma WalkMyTest()
    ensures WalkFrom(map["my" := Obj(map["test" := Str("mock")])], Split(Lower("MY_TEST")))
         == Ok(Target(["my"], "test"))
  {
    assert Lower("MY_TEST") == "my_test";
    TokensOf("MY_TEST", ["my", "test"]);
    var inner := map["test" := Str("mock")];
    var root := map["my" := Obj(inner)];
    UniqueNameFound(root, "my", "my");
    UniqueNameFound(inner, "test", "test");
    assert ["my", "test"][1..] == ["test"];
    WalkStops(inner, ["test"]);
    WalkOneDown(root, ["my", "test"], "my");
  }

  /** `MY_TEST=test` overrides `my.test` (utils.test.js:41-46). */
  lemma NestedExample()
    ensures OverrideAll(Obj(map["my" := Obj(map["test" := Str("mock")])]), [("MY_TEST", "test")]).0
         == Obj(map["my" := Obj(map["test" := Str("test")])])
  {
    var inner := map["test" := Str("mock")];
    WalkMyTest();
    SecondWrites(map["my" := Obj(inner)], "MY_TEST", "test", "my", "test", Str("test"));
    Overwrite("test", Str("mock"), Str("test"));
    Overwrite("my", Obj(inner), Obj(map["test" := Str("test")]));
    OverrideAllSingle(Obj(map["my" := Obj(inner)]), "MY_TEST", "test", Obj(map["my" := Obj(map["test" := Str("test")])]));
  }

  lemma WalkSingle(v: Value)
    ensures WalkFrom(map["single" := v], Split(Lower("SINGLE"))) == Ok(Target([], "single"))
  {
    assert Lower("SINGLE") == "single";
    TokensOf("SINGLE", ["single"]);
    UniqueNameFound(map["single" := v], "single", "single");
    WalkStops(map["single" := v], ["single"]);
  }

  /** `SINGLE=single` overrides the top-level `single` (utils.test.js:48-53). */
  lemma TopLevelExample()
    ensures OverrideOne(Obj(map["single" := Str("mock")]), "SINGLE", "single") == Ok(Obj(map["single" := Str("single")]))
  {
    WalkSingle(Str("mock"));
    TopWrites(map["single" := Str("mock")], "SINGLE", "single", "single", Str("single"));
    Overwrite("single", Str("mock"), Str("single"));
  }

  lemma WalkSingleTest()
    ensures WalkFrom(map["single-test" := Str("mock")], Split(Lower("SINGLE-TEST")))
         == Ok(Target([], "single-test"))
  {
    assert Lower("SINGLE-TEST") == "single-test";
    TokensOf("SINGLE-TEST", ["single-test"]);
    UniqueNameFound(map["single-test" := Str("mock")], "single-test", "single-test");
    WalkStops(map["single-test" := Str("mock")], ["single-test"]);
  }

  /** A name with a dash is one token: `SINGLE-TEST` overrides `single-test`
      (utils.test.js:92-108). */
  lemma KebabExample()
    ensures OverrideOne(Obj(map["single-test" := Str("mock")]), "SINGLE-TEST", "single-test") == Ok(Obj(map["single-test" := Str("single-test")]))
  {
    WalkSingleTest();
    TopWrites(map["single-test" := Str("mock")], "SINGLE-TEST", "single-test", "single-test", Str("single-test"));
    Overwrite("single-test", Str("mock"), Str("single-test"));
  }

  /** The configuration of utils.test.js:97-100. */
  const Kebab: map<string, Value> :=
    map["single-test" := Str("mock"), "test" := Obj(map["single-test" := Str("single-test")])]

  /** `Kebab` once `SINGLE-TEST=single-test` is applied. */
  const KebabTop: map<string, Value> := Kebab["single-test" := Str("single-test")]

  lemma KebabTopFound()
    ensures GetPropertyName(Kebab, "single-test") == Ok(Some("single-test"))
  {
    assert Kebab.Keys == {"single-test", "test"};
    assert Lower("test") != Lower("single-test");
    UniqueNameFound(Kebab, "single-test", "single-test");
  }

  lemma KebabTopTokens()
    ensures Split(Lower("SINGLE-TEST")) == ["single-test"]
  {
    assert Lower("SINGLE-TEST") == "single-test";
    TokensOf("SINGLE-TEST", ["single-test"]);
  }

  lemma WalkKebabTop()
    ensures WalkFrom(Kebab, Split(Lower("SINGLE-TEST"))) == Ok(Target([], "single-test"))
  {
    KebabTopTokens();
    KebabTopFound();
    WalkStops(Kebab, ["single-test"]);
  }

  lemma KebabFirstWrites()
    ensures OverrideOne(Obj(Kebab), "SINGLE-TEST", "single-test") == Ok(Obj(KebabTop))
  {
    WalkKebabTop();
    TopWrites(Kebab, "SINGLE-TEST", "single-test", "single-test", Str("single-test"));
  }

  lemma KebabNestedFound()
    ensures GetPropertyName(KebabTop, "test") == Ok(Some("test"))
  {
    assert KebabTop.Keys == {"single-test", "test"};
    assert Lower("single-test") != Lower("test");
    UniqueNameFound(KebabTop, "test", "test");
  }

  lemma KebabNestedTokens()
    ensures Split(Lower("TEST_SINGLE-TEST")) == ["test", "single-test"]
  {
    assert Lower("TEST_SINGLE-TEST") == "test_single-test";
    TokensOf("TEST_SINGLE-TEST", ["test", "single-test"]);
  }

  lemma KebabInnerWalk(inner: map<string, Value>)
    requires inner == map["single-test" := Str("single-test")]
    ensures WalkFrom(inner, ["single-test"]) == Ok(Target([], "single-test"))
  {
    UniqueNameFound(inner, "single-test", "single-test");
    WalkStops(inner, ["single-test"]);
  }

  lemma WalkKebabNested()
    ensures WalkFrom(KebabTop, Split(Lower("TEST_SINGLE-TEST"))) == Ok(Target(["test"], "single-test"))
  {
    var tokens := ["test", "single-test"];
    KebabNestedTokens();
    KebabNestedFound();
    KebabInnerWalk(KebabTop["test"].fields);
    assert tokens[1..] == ["single-test"];
    WalkOneDown(KebabTop, tokens, "test");
  }

  lemma KebabSecondWrites()
    ensures OverrideOne(Obj(KebabTop), "TEST_SINGLE-TEST", "testSingle-Test")
         == Ok(Obj(KebabTop["test" := Obj(map["single-test" := Str("testSingle-Test")])]))
  {
    WalkKebabNested();
    assert KebabTop["test"].fields == map["single-test" := Str("single-test")];
    SecondWrites(KebabTop, "TEST_SINGLE-TEST", "testSingle-Test", "test", "single-test", Str("testSingle-Test"));
    Overwrite("single-test", Str("single-test"), Str("testSingle-Test"));
  }

  /** `SINGLE-TEST` and `TEST_SINGLE-TEST` override the top-level
      `single-test` and the nested `test.single-test`: a dash stays inside
      a token (utils.test.js:92-108). */
  lemma KebabLookups(t2: map<string, Value>)
    requires t2 == KebabTop["test" := Obj(map["single-test" := Str("testSingle-Test")])]
    ensures Lookup(Obj(t2), ["single-test"]) == Some(Str("single-test"))
    ensures Lookup(Obj(t2), ["test", "single-test"]) == Some(Str("testSingle-Test"))
  {
    assert ["single-test"][1..] == [] && ["test", "single-test"][1..] == ["single-test"];
  }

  lemma KebabTestExample()
    ensures var r := OverrideAll(Obj(Kebab), [("SINGLE-TEST", "single-test"), ("TEST_SINGLE-TEST", "testSingle-Test")]);
      && r.1 == None
      && Lookup(r.0, ["single-test"]) == Some(Str("single-test"))
      && Lookup(r.0, ["test", "single-test"]) == Some(Str("testSingle-Test"))
  {
    var vars := [("SINGLE-TEST", "single-test"), ("TEST_SINGLE-TEST", "testSingle-Test")];
    var t2 := KebabTop["test" := Obj(map["single-test" := Str("testSingle-Test")])];
    KebabFirstWrites();
    KebabSecondWrites();
    assert vars[0] == ("SINGLE-TEST", "single-test") && vars[1..] == [("TEST_SINGLE-TEST", "testSingle-Test")];
    OverrideAllSingle(Obj(KebabTop), "TEST_SINGLE-TEST", "testSingle-Test", Obj(t2));
    KebabLookups(t2);
  }

  /** The configuration of utils.test.js:60-63, also that of
      utils.test.js:79-83 without its top-level `test`. */
  const Unmatched: map<string, Value> :=
    map["compose" := Obj(map["var" := Str("mock")]),
        "longer" := Obj(map["test" := Obj(map["var" := Str("mock")])])]

  lemma WalkComPoseVar()
    ensures WalkFrom(Unmatched, Split(Lower("COM_POSE_VAR"))) == Ok(Target([], "com"))
  {
    assert Lower("COM_POSE_VAR") == "com_pose_var";
    TokensOf("COM_POSE_VAR", ["com", "pose", "var"]);
    assert GetPropertyName(Unmatched, "com") == Ok(None) by {
      assert Lower("compose") != Lower("com") && Lower("longer") != Lower("com");
    }
    WalkStops(Unmatched, ["com", "pose", "var"]);
  }

  lemma WalkLongerTestvar()
    ensures WalkFrom(Unmatched, Split(Lower("LONGER_TESTVAR"))) == Ok(Target(["longer"], "testvar"))
  {
    assert Lower("LONGER_TESTVAR") == "longer_testvar";
    TokensOf("LONGER_TESTVAR", ["longer", "testvar"]);
    var longer := map["test" := Obj(map["var" := Str("mock")])];
    assert GetPropertyName(Unmatched, "longer") == Ok(Some("longer")) by {
      assert Lower("compose") != Lower("longer");
      UniqueNameFound(Unmatched, "longer", "longer");
    }
    assert GetPropertyName(longer, "testvar") == Ok(None) by {
      assert |Lower("test")| != |Lower("testvar")|;
    }
    assert ["longer", "testvar"][1..] == ["testvar"];
    WalkStops(longer, ["testvar"]);
    WalkOneDown(Unmatched, ["longer", "testvar"], "longer");
  }

  lemma WalkComposeVar()
    ensures WalkFrom(Unmatched, Split(Lower("COMPOSE_VAR"))) == Ok(Target(["compose"], "var"))
  {
    assert Lower("COMPOSE_VAR") == "compose_var";
    TokensOf("COMPOSE_VAR", ["compose", "var"]);
    var compose := map["var" := Str("mock")];
    assert GetPropertyName(Unmatched, "compose") == Ok(Some("compose")) by {
      assert Lower("longer") != Lower("compose");
      UniqueNameFound(Unmatched, "compose", "compose");
    }
    UniqueNameFound(compose, "var", "var");
    assert ["compose", "var"][1..] == ["var"];
    WalkStops(compose, ["var"]);
    WalkOneDown(Unmatched, ["compose", "var"], "compose");
  }

  lemma TokensLongerTestVar()
    ensures Split(Lower("LONGER_TEST_VAR")) == ["longer", "test", "var"]
  {
    assert Lower("LONGER_TEST_VAR") == "longer_test_var";
    TokensOf("LONGER_TEST_VAR", ["longer", "test", "var"]);
  }

  /** `longer` is found whatever `compose` holds. */
  lemma LongerFound(c: Value)
    ensures KeyRead(Unmatched["compose" := c], "longer") == Ok(Some("longer"))
  {
    var root := Unmatched["compose" := c];
    assert root.Keys == {"compose", "longer"};
    assert Lower("compose") != Lower("longer");
    UniqueNameFound(root, "longer", "longer");
  }

  /** Inside `longer`, the tokens `test` and `var` reach `test.var`. */
  lemma WalkTestVar()
    ensures WalkFrom(map["test" := Obj(map["var" := Str("mock")])], ["test", "var"]) == Ok(Target(["test"], "var"))
  {
    var tv := map["var" := Str("mock")];
    var longer := map["test" := Obj(tv)];
    UniqueNameFound(longer, "test", "test");
    UniqueNameFound(tv, "var", "var");
    assert ["test", "var"][1..] == ["var"];
    WalkStops(tv, ["var"]);
    WalkOneDown(longer, ["test", "var"], "test");
  }

  /** Whatever `compose` holds, `LONGER_TEST_VAR` walks down to `longer.test`. */
  lemma WalkLongerTestVar(c: Value)
    ensures WalkFrom(Unmatched["compose" := c], Split(Lower("LONGER_TEST_VAR")))
         == Ok(Target(["longer", "test"], "var"))
  {
    TokensLongerTestVar();
    var root := Unmatched["compose" := c];
    LongerFound(c);
    assert root["longer"] == Obj(map["test" := Obj(map["var" := Str("mock")])]);
    WalkTestVar();
    assert ["longer", "test", "var"][1..] == ["test", "var"];
    WalkInto(root, ["longer", "test", "var"], "longer");
    assert ["longer"] + ["test"] == ["longer", "test"];
  }

  /** `compose.var` once `COMPOSE_VAR=composeVar` is applied. */
  const ComposeSet: Value := Obj(map["var" := Str("mock")]["var" := Str("composeVar")])

  lemma DeepFirstWrites()
    ensures OverrideOne(Obj(Unmatched), "COMPOSE_VAR", "composeVar") == Ok(Obj(Unmatched["compose" := ComposeSet]))
  {
    WalkComposeVar();
    assert Unmatched["compose"].fields == map["var" := Str("mock")];
    SecondWrites(Unmatched, "COMPOSE_VAR", "composeVar", "compose", "var", Str("composeVar"));
  }

  lemma DeepNode()
    ensures Lookup(Obj(Unmatched["compose" := ComposeSet]), ["longer", "test"]) == Some(Obj(map["var" := Str("mock")]))
  {
    assert ["longer", "test"][1..] == ["test"] && ["test"][1..] == [];
  }

  lemma DeepSecondWrites()
    ensures OverrideOne(Obj(Unmatched["compose" := ComposeSet]), "LONGER_TEST_VAR", "longerTestVar")
         == Ok(SetAt(Obj(Unmatched["compose" := ComposeSet]), ["longer", "test", "var"], Str("longerTestVar")))
  {
    var t1 := Obj(Unmatched["compose" := ComposeSet]);
    var t := Target(["longer", "test"], "var");
    var tv := map["var" := Str("mock")];
    WalkLongerTestVar(ComposeSet);
    DeepNode();
    assert NodeAt(t1, t.path) == tv;
    assert Guard(tv, "var");
    assert Coerce("var", tv["var"], "longerTestVar") == Ok(Str("longerTestVar"));
    OverrideOneWrites(t1, "LONGER_TEST_VAR", "longerTestVar", t, Str("longerTestVar"));
    assert t.path + [t.prop] == ["longer", "test", "var"];
  }

  lemma DeepLookups()
    ensures var t2 := SetAt(Obj(Unmatched["compose" := ComposeSet]), ["longer", "test", "var"], Str("longerTestVar"));
      && Lookup(t2, ["compose", "var"]) == Some(Str("composeVar"))
      && Lookup(t2, ["longer", "test", "var"]) == Some(Str("longerTestVar"))
  {
    var t1 := Obj(Unmatched["compose" := ComposeSet]);
    var p := ["longer", "test", "var"];
    var leaf := Str("longerTestVar");
    assert Lookup(t1, p).Some? by {
      assert p[1..] == ["test", "var"] && p[1..][1..] == ["var"] && ["var"][1..] == [];
    }
    LookupSetAtSame(t1, p, leaf);
    LookupSetAtOther(t1, p, leaf, ["compose", "var"]);
    assert Lookup(t1, ["compose", "var"]) == Some(Str("composeVar")) by {
      assert ["compose", "var"][1..] == ["var"] && ["var"][1..] == [];
    }
  }

  /** `COMPOSE_VAR` and `LONGER_TEST_VAR` override `compose.var` and the
      three-level `longer.test.var` (utils.test.js:55-70). */
  lemma DeepExample()
    ensures var r := OverrideAll(Obj(Unmatched), [("COMPOSE_VAR", "composeVar"), ("LONGER_TEST_VAR", "longerTestVar")]);
      && r.1 == None
      && Lookup(r.0, ["compose", "var"]) == Some(Str("composeVar"))
      && Lookup(r.0, ["longer", "test", "var"]) == Some(Str("longerTestVar"))
  {
    var vars := [("COMPOSE_VAR", "composeVar"), ("LONGER_TEST_VAR", "longerTestVar")];
    var t1 := Obj(Unmatched["compose" := ComposeSet]);
    DeepFirstWrites();
    DeepSecondWrites();
    DeepLookups();
    assert vars[0] == ("COMPOSE_VAR", "composeVar") && vars[1..] == [("LONGER_TEST_VAR", "longerTestVar")];
    OverrideAllSingle(t1, "LONGER_TEST_VAR", "longerTestVar", SetAt(t1, ["longer", "test", "var"], Str("longerTestVar")));
  }

  /** A token that matches no key reads the key `undefined` instead, as
      `object[undefined]` does: `FOO_X=b` overrides `undefined.x`. */
  lemma UndefinedKeyExample()
    ensures OverrideOne(Obj(map["undefined" := Obj(map["x" := Str("a")])]), "FOO_X", "b")
         == Ok(Obj(map["undefined" := Obj(map["x" := Str("b")])]))
  {
    assert Lower("FOO_X") == "foo_x";
    TokensOf("FOO_X", ["foo", "x"]);
    var inner := map["x" := Str("a")];
    var root := map["undefined" := Obj(inner)];
    assert GetPropertyName(root, "foo") == Ok(None) by {
      assert Lower("undefined") != Lower("foo");
    }
    assert KeyRead(root, "foo") == Ok(Some("undefined"));
    UniqueNameFound(inner, "x", "x");
    assert ["foo", "x"][1..] == ["x"];
    WalkStops(inner, ["x"]);
    WalkOneDown(root, ["foo", "x"], "undefined");
    SecondWrites(root, "FOO_X", "b", "undefined", "x", Str("b"));
    Overwrite("x", Str("a"), Str("b"));
    Overwrite("undefined", Obj(inner), Obj(map["x" := Str("b")]));
  }

  /** Underscores always separate levels: `COM_POSE_VAR` does not reach
      `compose.var` (utils.test.js:72-90). */
  lemma SplitNameExample()
    ensures OverrideOne(Obj(Unmatched), "COM_POSE_VAR", "composeVar") == Ok(Obj(Unmatched))
  {
    WalkComPoseVar();
    OverrideOneSkips(Obj(Unmatched), "COM_POSE_VAR", "composeVar", Target([], "com"));
  }

  /** Nor does `LONGER_TESTVAR` reach `longer.test.var` (utils.test.js:72-90). */
  lemma JoinedNameExample()
    ensures OverrideOne(Obj(Unmatched), "LONGER_TESTVAR", "longerTestVar") == Ok(Obj(Unmatched))
  {
    WalkLongerTestvar();
    assert ["longer"][1..] == [];
    OverrideOneSkips(Obj(Unmatched), "LONGER_TESTVAR", "longerTestVar", Target(["longer"], "testvar"));
  }

  lemma WalkSingleExtra()
    ensures WalkFrom(map["single" := Str("mock")], Split(Lower("SINGLE_EXTRA"))) == Ok(Target([], "single"))
  {
    assert Lower("SINGLE_EXTRA") == "single_extra";
    TokensOf("SINGLE_EXTRA", ["single", "extra"]);
    UniqueNameFound(map["single" := Str("mock")], "single", "single");
    WalkStops(map["single" := Str("mock")], ["single", "extra"]);
  }

  /** Tokens left over once a scalar is reached are ignored: `SINGLE_EXTRA`
      overrides `single`. */
  lemma LeftoverTokensExample()
    ensures OverrideOne(Obj(map["single" := Str("mock")]), "SINGLE_EXTRA", "x") == Ok(Obj(map["single" := Str("x")]))
  {
    WalkSingleExtra();
    TopWrites(map["single" := Str("mock")], "SINGLE_EXTRA", "x", "single", Str("x"));
    Overwrite("single", Str("mock"), Str("x"));
  }

  lemma WalkMy()
    ensures WalkFrom(map["my" := Obj(map["test" := Str("mock")])], Split(Lower("MY"))) == Ok(Target([], "my"))
  {
    assert Lower("MY") == "my";
    TokensOf("MY", ["my"]);
    UniqueNameFound(map["my" := Obj(map["test" := Str("mock")])], "my", "my");
    WalkStops(map["my" := Obj(map["test" := Str("mock")])], ["my"]);
  }

  /** A name that stops at an object replaces the whole object by the string:
      `MY=x` turns `my: {test: 'mock'}` into `my: 'x'`. */
  lemma SubtreeReplacedExample()
    ensures OverrideOne(Obj(map["my" := Obj(map["test" := Str("mock")])]), "MY", "x") == Ok(Obj(map["my" := Str("x")]))
  {
    WalkMy();
    TopWrites(map["my" := Obj(map["test" := Str("mock")])], "MY", "x", "my", Str("x"));
    Overwrite("my", Obj(map["test" := Str("mock")]), Str("x"));
  }

  lemma WalkMykey()
    ensures WalkFrom(map["myKey" := Str("mock")], Split(Lower("MYKEY"))) == Ok(Target([], "mykey"))
  {
    assert Lower("MYKEY") == "mykey";
    TokensOf("MYKEY", ["mykey"]);
    assert GetPropertyName(map["myKey" := Str("mock")], "mykey") == Ok(Some("myKey")) by {
      assert Lower("myKey") == Lower("mykey");
      UniqueNameFound(map["myKey" := Str("mock")], "mykey", "myKey");
    }
    WalkStops(map["myKey" := Str("mock")], ["mykey"]);
  }

  /** A key written with capitals is found by the walk but fails the exact
      check of the guard, so no variable can override it: `MYKEY=x` leaves
      `myKey` alone. */
  lemma MixedCaseKeyExample()
    ensures OverrideOne(Obj(map["myKey" := Str("mock")]), "MYKEY", "x") == Ok(Obj(map["myKey" := Str("mock")]))
  {
    WalkMykey();
    OverrideOneSkips(Obj(map["myKey" := Str("mock")]), "MYKEY", "x", Target([], "mykey"));
  }

  /** A falsy setting is never overridden: `SINGLE=x` leaves `single: false`. */
  lemma FalsyValueExample()
    ensures OverrideOne(Obj(map["single" := Bool(false)]), "SINGLE", "x") == Ok(Obj(map["single" := Bool(false)]))
  {
    WalkSingle(Bool(false));
    OverrideOneSkips(Obj(map["single" := Bool(false)]), "SINGLE", "x", Target([], "single"));
  }
}

=== FILE: text.dfy ===
/** The string operations the override engine relies on: ASCII lower-casing,
    splitting a variable name on `_`, and the decimal integers that stand in
    for JavaScript's `Number(value)` and for array indices as object keys. */
module Text {
  import opened Wrappers

  /** `toLowerCase` of one character, for ASCII letters only. */
  function LowerChar(c: char): char {
    if 'A' <= c <= 'Z' then (c as int + 32) as char else c
  }

  /** `String.prototype.toLowerCase`, for ASCII letters only. */
  function Lower(s: string): string {
    seq(|s|, i requires 0 <= i < |s| => LowerChar(s[i]))
  }

  /** Lower-casing keeps the length, leaves no capital letter, and changes
      a character only by turning a capital into its small letter. */
  lemma LowerLetters(s: string)
    ensures |Lower(s)| == |s|
    ensures forall i :: 0 <= i < |s| ==> !('A' <= Lower(s)[i] <= 'Z')
    ensures forall i :: 0 <= i < |s| ==>
              Lower(s)[i] == s[i] || ('A' <= s[i] <= 'Z' && Lower(s)[i] as int == s[i] as int + 32)
  {
  }

  /** `s.split('_')`: the pieces between underscores, in order. An empty
      string gives one empty piece, and two adjacent underscores give an
      empty piece between them. */
  function Split(s: string): (tokens: seq<string>)
    ensures |tokens| >= 1
    ensures forall i :: 0 <= i < |tokens| ==> '_' !in tokens[i]
    decreases |s|
  {
    if s == [] then [""]
    else
      var rest := Split(s[1..]);
      if s[0] == '_' then [""] + rest
      else [[s[0]] + rest[0]] + rest[1..]
  }

  /** `tokens.join('_')`, the inverse of Split. */
  function Join(tokens: seq<string>): string
    requires |tokens| >= 1
    decreases |tokens|
  {
    if |tokens| == 1 then tokens[0] else tokens[0] + "_" + Join(tokens[1..])
  }

  /** Joining the pieces of a split gives back the original name. */
  lemma {:induction false} JoinSplit(s: string)
    ensures Join(Split(s)) == s
    decreases |s|
  {
    if s != [] {
      var rest := Split(s[1..]);
      JoinSplit(s[1..]);
      if s[0] == '_' {
        assert Split(s) == [""] + rest;
        assert (([""] + rest)[1..]) == rest;
        assert s == "_" + s[1..];
      } else if |rest| == 1 {
        assert Split(s) == [[s[0]] + rest[0]];
        assert s == [s[0]] + s[1..];
      } else {
        assert Split(s) == [[s[0]] + rest[0]] + rest[1..];
        assert ([[s[0]] + rest[0]] + rest[1..])[1..] == rest[1..];
        assert Join(rest) == rest[0] + "_" + Join(rest[1..]);
        assert s == [s[0]] + s[1..];
      }
    }
  }

  /** Every character of a piece is a character of the string split. */
  lemma {:induction false} SplitKeepsChars(s: string)
    ensures forall i, c :: 0 <= i < |Split(s)| && c in Split(s)[i] ==> c in s
    decreases |s|
  {
    if s != [] {
      SplitKeepsChars(s[1..]);
      var rest := Split(s[1..]);
      assert s == [s[0]] + s[1..];
      if s[0] == '_' {
        assert Split(s) == [""] + rest;
        forall i, c | 0 <= i < |Split(s)| && c in Split(s)[i]
          ensures c in s
        {
          assert Split(s)[i] == rest[i - 1];
        }
      } else {
        assert Split(s) == [[s[0]] + rest[0]] + rest[1..];
        forall i, c | 0 <= i < |Split(s)| && c in Split(s)[i]
          ensures c in s
        {
          if i == 0 {
            assert c == s[0] || c in rest[0];
          } else {
            assert Split(s)[i] == rest[i];
          }
        }
      }
    }
  }

  /** `s` holds no ASCII capital letter. */
  predicate NoCapital(s: string) {
    forall j :: 0 <= j < |s| ==> !('A' <= s[j] <= 'Z')
  }

  /** The pieces of a lower-cased name hold no capital letter. */
  lemma LowerTokens(name: string)
    ensures forall i :: 0 <= i < |Split(Lower(name))| ==> NoCapital(Split(Lower(name))[i])
  {
    SplitKeepsChars(Lower(name));
    LowerLetters(name);
    forall i, j | 0 <= i < |Split(Lower(name))| && 0 <= j < |Split(Lower(name))[i]|
      ensures !('A' <= Split(Lower(name))[i][j] <= 'Z')
    {
      var c := Split(Lower(name))[i][j];
      assert c in Split(Lower(name))[i];
      assert c in Lower(name);
      var k :| 0 <= k < |Lower(name)| && Lower(name)[k] == c;
    }
  }

  /** A piece without underscores splits to itself. */
  lemma {:induction false} SplitPlain(t: string)
    requires '_' !in t
    ensures Split(t) == [t]
    decreases |t|
  {
    if t != [] {
      SplitPlain(t[1..]);
      assert t == [t[0]] + t[1..];
    }
  }

  /** A piece without underscores, then `_`, splits off as the first token. */
  lemma {:induction false} SplitAtFirstUnderscore(t: string, u: string)
    requires '_' !in t
    ensures Split(t + "_" + u) == [t] + Split(u)
    decreases |t|
  {
    if t == [] {
      assert t + "_" + u == "_" + u;
      assert ("_" + u)[1..] == u;
    } else {
      SplitAtFirstUnderscore(t[1..], u);
      assert (t + "_" + u)[1..] == t[1..] + "_" + u;
      assert t == [t[0]] + t[1..];
    }
  }

  /** Splitting the join of underscore-free pieces gives back the pieces. */
  lemma {:induction false} SplitJoin(tokens: seq<string>)
    requires |tokens| >= 1
    requires forall i :: 0 <= i < |tokens| ==> '_' !in tokens[i]
    ensures Split(Join(tokens)) == tokens
    decreases |tokens|
  {
    if |tokens| == 1 {
      SplitPlain(tokens[0]);
    } else {
      SplitJoin(tokens[1..]);
      SplitAtFirstUnderscore(tokens[0], Join(tokens[1..]));
      assert tokens == [tokens[0]] + tokens[1..];
    }
  }

  predicate IsDigit(c: char) {
    '0' <= c <= '9'
  }

  predicate AllDigits(s: string) {
    |s| >= 1 && forall i :: 0 <= i < |s| ==> IsDigit(s[i])
  }

  function DigitChar(d: nat): char
    requires d < 10
  {
    (48 + d) as char
  }

  /** The decimal digits of `n`, most significant first, without leading zeros. */
  function NatToString(n: nat): string
    decreases n
  {
    if n < 10 then [DigitChar(n)] else NatToString(n / 10) + [DigitChar(n % 10)]
  }

  /** `String(i)` for an integer. */
  function IntToString(i: int): string {
    if i < 0 then "-" + NatToString(-i) else NatToString(i)
  }

  /** The value of a run of decimal digits. */
  function DigitsValue(s: string): nat
    requires forall i :: 0 <= i < |s| ==> IsDigit(s[i])
    decreases |s|
  {
    if s == [] then 0
    else
      assert IsDigit(s[|s| - 1]);
      DigitsValue(s[..|s| - 1]) * 10 + (s[|s| - 1] as int - '0' as int)
  }

  /** `Number(s)` restricted to integers: the empty string is 0, an optional
      sign followed by one or more decimal digits is that integer, and
      everything else is NaN (None). */
  function ParseNumber(s: string): (r: Option<int>)
    ensures s == "" ==> r == Some(0)
    ensures AllDigits(s) ==> r.Some? && r.value >= 0
    ensures r.Some? ==> forall i :: 0 < i < |s| ==> IsDigit(s[i])
    ensures r.Some? && s != "" ==> IsDigit(s[0]) || s[0] == '-' || s[0] == '+'
    ensures r.Some? && r.value < 0 ==> s[0] == '-'
  {
    if s == "" then Some(0)
    else if AllDigits(s) then Some(DigitsValue(s))
    else if (s[0] == '-' || s[0] == '+') && AllDigits(s[1..]) then
      var magnitude: int := DigitsValue(s[1..]);
      Some(if s[0] == '-' then -magnitude else magnitude)
    else None
  }

  lemma {:induction false} NatToStringDigits(n: nat)
    ensures AllDigits(NatToString(n))
    ensures DigitsValue(NatToString(n)) == n
    decreases n
  {
    if n >= 10 {
      NatToStringDigits(n / 10);
      var s := NatToString(n);
      assert s[..|s| - 1] == NatToString(n / 10);
    }
  }

  /** Every integer written in decimal parses back to itself. */
  lemma ParseNumberRoundTrip(i: int)
    ensures ParseNumber(IntToString(i)) == Some(i)
  {
    if i < 0 {
      NatToStringDigits(-i);
      var s := IntToString(i);
      assert s[1..] == NatToString(-i);
      assert !AllDigits(s) by { assert !IsDigit(s[0]); }
    } else {
      NatToStringDigits(i);
    }
  }

  /** Two different naturals are written differently, so index keys never collide. */
  lemma NatToStringInjective(m: nat, n: nat)
    requires NatToString(m) == NatToString(n)
    ensures m == n
  {
    NatToStringDigits(m);
    NatToStringDigits(n);
  }
}

=== FILE: values.dfy ===
/** Configuration values as the JavaScript code sees a parsed YAML document:
    objects, booleans, numbers, strings, arrays and null, together with the
    errors the loader and the override engine throw and the few JavaScript
    coercions they depend on (truthiness, object spread, template strings). */
module Values {
  import opened Wrappers
  import opened Text

  /** A configuration value. Object keys are case-sensitive in storage;
      numbers are integers (floating point is not modelled). */
  datatype Value =
    | Obj(fields: map<string, Value>)
    | Bool(b: bool)
    | Num(n: int)
    | Str(s: string)
    | Arr(items: seq<Value>)
    | Null

  /** The errors thrown by the modelled code. */
  datatype Error =
    | DuplicateProperty(property: string)                // utils.js:18
    | NonExistingProperty(property: string, value: string) // utils.js:37-39
    | NotBoolean(property: string, value: string)        // utils.js:45-47
    | NotNumber(property: string, value: string)         // utils.js:54-56
    | IncludeNotArray(profile: string)                   // utils.js:125-127
    | IncludeNotIterable                                 // `include.forEach` is not a function
    | NoDocument                                         // reading `.include` of an empty document
    | LoadFailed(profile: string)                        // the profile's file cannot be read or parsed
    | Diverged                                           // circular includes: the source never returns

  /** A sequence of object keys leading from a value to one of its parts. */
  type Path = seq<string>

  /** `isObject` (utils.js:5-7): truthy, of type 'object' (an object, an
      array or null), and not an array. */
  predicate IsObject(v: Value): (r: bool)
    ensures r <==> Truthy(v) && (v.Obj? || v.Arr? || v.Null?) && !v.Arr?
  {
    v.Obj?
  }

  /** JavaScript truthiness: false, 0, '' and null are falsy; every object
      and array is truthy. */
  predicate Truthy(v: Value): (r: bool)
    ensures !r <==> v == Bool(false) || v == Num(0) || v == Str("") || v == Null
  {
    match v
    case Obj(_) => true
    case Arr(_) => true
    case Bool(b) => b
    case Num(n) => n != 0
    case Str(s) => s != ""
    case Null => false
  }

  /** The value reached by following `p` through nested objects, if any. */
  function Lookup(v: Value, p: Path): Option<Value>
    decreases |p|
  {
    if p == [] then Some(v)
    else if v.Obj? && p[0] in v.fields then Lookup(v.fields[p[0]], p[1..])
    else None
  }

  /** `v` with the part at `p` replaced by `x`; `v` itself when `p` leads nowhere. */
  function SetAt(v: Value, p: Path, x: Value): Value
    decreases |p|
  {
    if p == [] then x
    else if v.Obj? && p[0] in v.fields then Obj(v.fields[p[0] := SetAt(v.fields[p[0]], p[1..], x)])
    else v
  }

  lemma {:induction false} LookupAppend(v: Value, p: Path, q: Path)
    requires Lookup(v, p).Some?
    ensures Lookup(v, p + q) == Lookup(Lookup(v, p).value, q)
    decreases |p|
  {
    if p != [] {
      assert p + q != [] && (p + q)[0] == p[0] && (p + q)[1..] == p[1..] + q;
      assert Lookup(v, p) == Lookup(v.fields[p[0]], p[1..]);
      LookupAppend(v.fields[p[0]], p[1..], q);
    } else {
      assert p + q == q;
    }
  }

  /** After SetAt, the replaced part is found where it was put. */
  lemma {:induction false} LookupSetAtSame(v: Value, p: Path, x: Value)
    requires Lookup(v, p).Some?
    ensures Lookup(SetAt(v, p, x), p) == Some(x)
    decreases |p|
  {
    if p != [] {
      LookupSetAtSame(v.fields[p[0]], p[1..], x);
    }
  }

  /** SetAt changes nothing at a path that is neither a prefix nor an extension of `p`. */
  lemma {:induction false} LookupSetAtOther(v: Value, p: Path, x: Value, q: Path)
    requires !(p <= q) && !(q <= p)
    ensures Lookup(SetAt(v, p, x), q) == Lookup(v, q)
    decreases |p|
  {
    if v.Obj? && p[0] in v.fields && q[0] in v.fields {
      if p[0] == q[0] {
        assert !(p[1..] <= q[1..]) && !(q[1..] <= p[1..]) by {
          assert p == [p[0]] + p[1..] && q == [q[0]] + q[1..];
        }
        LookupSetAtOther(v.fields[p[0]], p[1..], x, q[1..]);
      }
    }
  }

  /** SetAt below an existing path keeps the value an object when it was one. */
  lemma SetAtKeepsObject(v: Value, p: Path, x: Value)
    requires v.Obj? && (p != [] || x.Obj?)
    ensures SetAt(v, p, x).Obj?
  {
  }

  /** Putting a non-object at an existing path creates no new path. */
  lemma {:induction false} SetAtNoNewPaths(v: Value, p: Path, x: Value, q: Path)
    requires Lookup(v, p).Some? && !x.Obj?
    requires Lookup(SetAt(v, p, x), q).Some?
    ensures Lookup(v, q).Some?
    decreases |p|
  {
    if p != [] && q != [] {
      var k := p[0];
      if q[0] == k {
        SetAtNoNewPaths(v.fields[k], p[1..], x, q[1..]);
      }
    }
  }

  /** Replacing one field of the object at `path` is replacing the part at `path + [k]`. */
  lemma {:induction false} SetAtChild(v: Value, path: Path, k: string, x: Value)
    requires Lookup(v, path).Some? && Lookup(v, path).value.Obj? && k in Lookup(v, path).value.fields
    ensures SetAt(v, path, Obj(Lookup(v, path).value.fields[k := x])) == SetAt(v, path + [k], x)
    decreases |path|
  {
    if path == [] {
      assert path + [k] == [k];
    } else {
      assert (path + [k])[0] == path[0] && (path + [k])[1..] == path[1..] + [k];
      SetAtChild(v.fields[path[0]], path[1..], k, x);
    }
  }

  /** Below the replaced part, SetAt shows what lies below in the new part. */
  lemma {:induction false} LookupSetAtBelow(v: Value, p: Path, x: Value, q: Path)
    requires Lookup(v, p).Some? && p <= q
    ensures Lookup(SetAt(v, p, x), q) == Lookup(x, q[|p|..])
    decreases |p|
  {
    if p != [] {
      assert q[1..][|p[1..]|..] == q[|p|..];
      assert p[1..] <= q[1..];
      LookupSetAtBelow(v.fields[p[0]], p[1..], x, q[1..]);
    }
  }

  /** Above the replaced part, SetAt shows the old part with the replacement made inside it. */
  lemma {:induction false} LookupSetAtAbove(v: Value, p: Path, x: Value, q: Path)
    requires Lookup(v, p).Some? && q <= p
    ensures Lookup(v, q).Some?
    ensures Lookup(SetAt(v, p, x), q) == Some(SetAt(Lookup(v, q).value, p[|q|..], x))
    decreases |q|
  {
    if q != [] {
      assert p[1..][|q[1..]|..] == p[|q|..];
      assert q[1..] <= p[1..];
      LookupSetAtAbove(v.fields[p[0]], p[1..], x, q[1..]);
    }
  }

  /** Every proper prefix of an existing path leads to an object. */
  lemma {:induction false} LookupPrefixIsObject(v: Value, q: Path, p: Path)
    requires Lookup(v, p).Some? && q < p
    ensures Lookup(v, q).Some? && Lookup(v, q).value.Obj?
    decreases |q|
  {
    if q != [] {
      assert q[1..] < p[1..];
      LookupPrefixIsObject(v.fields[p[0]], q[1..], p[1..]);
    }
  }

  /** The keys "0", "1", ..., "n-1". */
  function IndexKeys(n: nat): set<string> {
    if n == 0 then {} else IndexKeys(n - 1) + {NatToString(n - 1)}
  }

  lemma {:induction false} IndexKeysBelow(n: nat, j: nat)
    requires n <= j
    ensures NatToString(j) !in IndexKeys(n)
  {
    if n > 0 {
      IndexKeysBelow(n - 1, j);
      if NatToString(n - 1) == NatToString(j) { NatToStringInjective(n - 1, j); }
    }
  }

  /** Object-spread of an array or string: element `i` under the key "i". */
  function IndexKeyed(xs: seq<Value>): (m: map<string, Value>)
    ensures m.Keys == IndexKeys(|xs|)
    ensures forall i :: 0 <= i < |xs| ==> NatToString(i) in m && m[NatToString(i)] == xs[i]
    decreases |xs|
  {
    if xs == [] then map[]
    else
      var last := |xs| - 1;
      IndexKeysBelow(last, last);
      IndexKeyed(xs[..last])[NatToString(last) := xs[last]]
  }

  /** The own enumerable properties `{...v}` copies: an object's fields, the
      characters of a string or the elements of an array under their index,
      and nothing for a boolean, a number or null. */
  function Spread(v: Value): (r: map<string, Value>)
    ensures v.Obj? ==> r == v.fields
    ensures v.Arr? ==> r.Keys == IndexKeys(|v.items|)
    ensures v.Arr? ==> forall i :: 0 <= i < |v.items| ==> NatToString(i) in r && r[NatToString(i)] == v.items[i]
    ensures v.Str? ==> r.Keys == IndexKeys(|v.s|)
    ensures v.Str? ==> forall i :: 0 <= i < |v.s| ==> NatToString(i) in r && r[NatToString(i)] == Str([v.s[i]])
    ensures v.Bool? || v.Num? || v.Null? ==> r == map[]
  {
    match v
    case Obj(m) => m
    case Str(s) => IndexKeyed(seq(|s|, i requires 0 <= i < |s| => Str([s[i]])))
    case Arr(xs) => IndexKeyed(xs)
    case _ => map[]
  }

  /** A JavaScript template substitution `${v}`: what a profile named by an
      `include` entry turns into inside the file name. */
  function ToJsString(v: Value): (r: string)
    ensures v.Str? ==> r == v.s
    ensures v.Null? ==> r == "null"
    ensures v.Bool? ==> (r == "true" <==> v.b) && (r == "true" || r == "false")
    ensures v.Obj? ==> r == "[object Object]"
    ensures v.Arr? && v.items == [] ==> r == ""
    ensures v.Arr? && |v.items| == 1 ==> r == (if v.items[0].Null? then "" else ToJsString(v.items[0]))
    ensures v.Arr? && |v.items| >= 2 ==> ',' in r
    decreases v
  {
    match v
    case Str(s) => s
    case Num(n) => IntToString(n)
    case Bool(b) => if b then "true" else "false"
    case Null => "null"
    case Obj(_) => "[object Object]"
    case Arr(xs) =>
      // Array.prototype.join(','): null elements become empty strings
      JoinWithComma(seq(|xs|, i requires 0 <= i < |xs| => if xs[i].Null? then "" else ToJsString(xs[i])))
  }

  /** A number in an `include` list names the profile written with its
      decimal digits, which read back as that number. */
  lemma ToJsStringNumber(v: Value)
    requires v.Num?
    ensures ParseNumber(ToJsString(v)) == Some(v.n)
    ensures AllDigits(ToJsString(v)) <==> v.n >= 0
  {
    ParseNumberRoundTrip(v.n);
    if v.n < 0 {
      assert !IsDigit(ToJsString(v)[0]);
    } else {
      NatToStringDigits(v.n);
    }
  }

  function JoinWithComma(parts: seq<string>): string
    decreases |parts|
  {
    if parts == [] then ""
    else if |parts| == 1 then parts[0]
    else
      assert (parts[0] + ",")[|parts[0]|] == ',';
      parts[0] + "," + JoinWithComma(parts[1..])
  }
}

=== FILE: wrappers.dfy ===
/** Option and Result, used for JavaScript's `undefined` and for thrown errors. */
module Wrappers {

  datatype Option<+T> = None | Some(value: T)

  /** `Err` stands for a thrown `Error`; `:-` propagates it as a `throw` would. */
  datatype Result<+T, +E> = Ok(value: T) | Err(error: E) {

    predicate IsFailure() {
      Err?
    }

    function PropagateFailure<U>(): Result<U, E>
      requires Err?
    {
      Err(error)
    }

    function Extract(): T
      requires Ok?
    {
      value
    }
  }
}
